=== FILE: README.md ===
# A verified model of yyargs, colsof and textsplit

This project models, in Dafny, the small text-processing core of a
collection of command-line tools:

- **yyargs** (`src/yyargs/yyargs.py`), a "simpler xargs". Every command-line
  token is a template such as `{0}-{1}`. `parse_fmt` turns it into a list of
  `Literal` and `Positional` nodes by driving a `Stream` cursor over its
  characters. Then every input line is stripped of its line end and split on
  single spaces into a row. Every node is substituted against the row and the
  results are joined into one argument.
  - `Cursor` models the `Stream` class.
  - `Template` models the nodes, `substitute`, `Literal.__add__` and rendering.
  - `Parser` models `parse_fmt`. It gives a pure function (`Parse`, one step at
    a time through `NodeAt`) and the loop over the cursor (`ParseFmt`), proved
    to compute it.
  - `ParserProperties` proves the grammar's examples and error cases. It also
    proves a round trip: doubling the braces of a text and parsing the
    result gives a template that renders back to the text, as long as the
    text's only whitespace is spaces and it does not end in whitespace.
  - `Dispatcher` models `main`: all templates are compiled first, then lines
    are turned into argument vectors one by one.
- **The earlier draft** (`yyargs/yyargs.py`). Its cursor looks one place
  ahead by default, and its `consume` returns the character it skips to.
  `DraftCursor` models that cursor and the draft's `BasicString`/`Positional`
  nodes, and relates them to the nodes of the final version.
- **colsof** (`src/colsof/colsof.py`). `col_to_index` reads a column name as
  a decimal number or as a spreadsheet letter name in bijective base 26. The
  converted columns are sorted in place, and the first and last are the
  column range read. `Columns` models both and proves that letter names
  decode bijectively.
- **textsplit** (`src/textsplit/textsplit.py`). It splits every line on a
  delimiter and prints each non-blank part stripped. `TextSplit` models the
  nested loops as a method, proved against a filter-and-map specification.

`Text` and `Fields` model the Python string operations the tools use:
`isspace`, `isdigit`, `int`, `upper`, `strip`, `rstrip('\r\n')`, `split` and
`join`. `Results` holds `Option` and `Result`.

Each of the following exceptions of the modelled code is a `Result` error or
an `Option` `None` in the model:
- `ValueError` from a malformed template.
- The `AttributeError` of `None.isspace()` when the whitespace run that starts
  an iteration of the `parse_fmt` loop reaches the end of the template, as in
  `"{0} "`. Trailing whitespace inside a literal run, as in `"a "`, parses.
- `IndexError` from a placeholder beyond the row.
- `ValueError` from an empty delimiter in `str.split`.

An `OSError` from `subprocess.run` when a command cannot be started, and the
`ValueError` of `int` on a string of more than 4300 digits, are not modelled
(see below).

Two behaviours of the code that the model follows:
- The code does not catch the `IndexError` of a row too short for a
  placeholder. The run ends at that line, after the commands of the earlier
  lines have run (`Dispatcher.RunLines`).
- `skip_spaces` returns the number of characters skipped, and so does the
  model.

## Model

| member | source | states |
|---|---|---|
| Cursor.Clamp | src/yyargs/yyargs.py:58-63 | the clamped index is always in [-1, len], equals the target when that is in range, len above it and -1 below it |
| Cursor.At | src/yyargs/yyargs.py:65-69 | bounds-checked lookup never fails: a character exactly when 0 <= t < len, and then the character at t |
| Cursor.Stream.constructor | src/yyargs/yyargs.py:53-56 | a new cursor is at position 0 of the given text |
| Cursor.Stream.Incr | src/yyargs/yyargs.py:58-63 | `_incr` leaves the index in [-1, len]: the old index plus n, clamped |
| Cursor.Stream.Look | src/yyargs/yyargs.py:65-69 | `look(k)` gives the character at index+k when that is in range and `None` otherwise |
| Cursor.Stream.Consume | src/yyargs/yyargs.py:71-72 | `consume(k)` moves by k, clamped, so the index stays in [-1, len] |
| Cursor.Stream.Prev | src/yyargs/yyargs.py:74-76 | `prev` steps back one (clamped) and returns the character under the new position |
| Cursor.Stream.SkipSpaces | src/yyargs/yyargs.py:78-83 | skips exactly the maximal whitespace run under the cursor and returns its length; raises (`None`) when the cursor is off the text or the run reaches the end |
| Cursor.Stream.Expect | src/yyargs/yyargs.py:85-89 | returns true iff `c` was under the cursor, then advances exactly one; otherwise leaves the index unchanged |
| Cursor.Stream.IsAtEnd | src/yyargs/yyargs.py:91-92 | on a valid cursor, `is_at_end` holds exactly when the index equals the text length |
| Cursor.Stream.Curr | src/yyargs/yyargs.py:94-95 | the index, always in [-1, len] for a valid cursor |
| Cursor.Stream.AtEndIffNothingUnderCursor | src/yyargs/yyargs.py:91-92 | from position 0 on, `is_at_end` holds iff `look()` is `None` |
| Template.Substitute | src/yyargs/yyargs.py:21-38 | a `Literal` substitutes to its text for any row; `Positional(p)` succeeds iff p < len(row), giving `row[p]`, and otherwise raises `IndexError`; the index and row length that `IndexOutOfRange` carries are extra information of the model, as Python's `IndexError` names neither |
| Template.Add | src/yyargs/yyargs.py:40-41 | `a + b` is a literal whose text is the text of `a` followed by that of `b` |
| Template.Render | src/yyargs/yyargs.py:159-163 | a template renders only when every one of its placeholders is within the row |
| Template.RenderAppend | src/yyargs/yyargs.py:159-163 | rendering the concatenation of two node lists is rendering each and concatenating, with the first error winning |
| Template.RenderOkIffInRange | src/yyargs/yyargs.py:159-163 | rendering succeeds iff every placeholder index is below the row length |
| Template.RenderErrorIsFirstOutOfRange | src/yyargs/yyargs.py:161-162 | a failed render reports the first node, in order, whose placeholder is beyond the row |
| Template.RenderLiteralsOnly | src/yyargs/yyargs.py:37-38 | a template of literals renders to the concatenation of their texts |
| Template.RenderIndependentOfRow | src/yyargs/yyargs.py:37-38 | a template of literals renders the same for every row |
| Template.AddPreservesRender | src/yyargs/yyargs.py:40-41 | replacing two adjacent literals by their sum `a + b` does not change what any template renders |
| Parser.LiteralRunShape | src/yyargs/yyargs.py:127-145 | a literal run stops only at the end or at an undoubled `{`; it is empty iff it consumed nothing; it fails only at an undoubled `}` |
| Parser.LiteralRun | src/yyargs/yyargs.py:127-145 | a literal run ends between its start and the end of the text, and its text is no longer than what it consumed |
| Parser.OpensPlaceholder | src/yyargs/yyargs.py:104 | the branch test `look() == '{' and look(1) != '{'`: a `{` not doubled, which is never whitespace |
| Parser.PlaceholderAt | src/yyargs/yyargs.py:104-119 | a placeholder gives a `Positional` and consumes at least one character; a missing `}` is reported within the text |
| Parser.NodeAt | src/yyargs/yyargs.py:100-145 | each loop iteration consumes at least one character and never appends an empty literal |
| Parser.ParseFrom | src/yyargs/yyargs.py:97-148 | parsing terminates, gives at most one node per character, no empty literal, and error positions within the text |
| Parser.Parse | src/yyargs/yyargs.py:97-148 | a parsed template has at most one node per character of the token and no empty literal |
| Parser.ParseNode | src/yyargs/yyargs.py:100-145 | one iteration of the loop, on the cursor, appends the node `NodeAt` gives and leaves the cursor where `NodeAt` says |
| Parser.ReadPlaceholder | src/yyargs/yyargs.py:105-119 | the placeholder branch, on the cursor, computes `PlaceholderAt` |
| Parser.ReadDigits | src/yyargs/yyargs.py:112-115 | the digit loop collects exactly the maximal digit run and leaves the cursor after it |
| Parser.ReadLiteralRun | src/yyargs/yyargs.py:128-145 | the literal-run loop, on the cursor, computes `LiteralRun` |
| Parser.ParseFmt | src/yyargs/yyargs.py:97-148 | the `parse_fmt` loop over the cursor computes `Parse` |
| ParserProperties.ExamplePlaceholders | src/yyargs/yyargs.py:101-119 | `"{0} {1}"` parses to `[Positional(0), Literal(" "), Positional(1)]` |
| ParserProperties.ExampleWord | src/yyargs/yyargs.py:127-145 | `"echo"` parses to `[Literal("echo")]` |
| ParserProperties.ExampleTwoPlaceholders | src/yyargs/yyargs.py:101-145 | `"{0}-{1}"` parses to `[Positional(0), Literal("-"), Positional(1)]` |
| ParserProperties.ExampleLeadingZeros | src/yyargs/yyargs.py:112-119 | `"{007}"` parses to `[Positional(7)]` |
| ParserProperties.ExampleDoubledBraces | src/yyargs/yyargs.py:127-145 | `"{{}}"` parses to the single `Literal("{}")` |
| ParserProperties.ExampleDoubledBraceInRun | src/yyargs/yyargs.py:127-145 | `"a{{b"` parses to `[Literal("a{b")]` |
| ParserProperties.ExampleDoubledCloseFirst | src/yyargs/yyargs.py:120-124 | `"}}{{"` parses to `[Literal("}"), Literal("{")]` |
| ParserProperties.ExampleWhitespace | src/yyargs/yyargs.py:101-103 | a tab at an iteration start becomes a space: `"\tx"` parses to `[Literal(" "), Literal("x")]` |
| ParserProperties.ExampleWhitespaceInRun | src/yyargs/yyargs.py:142-144 | whitespace inside a literal run is kept: `"a\tb"` parses to `[Literal("a\tb")]` |
| ParserProperties.ExampleOpenBraceErrors | src/yyargs/yyargs.py:106-119 | `"{"`, `"{a}"` and `"{12"` raise 'Expected "}"' at the cursor position; `"{}"` raises from `int('')` |
| ParserProperties.ExampleCloseBraceAndSpaceErrors | src/yyargs/yyargs.py:120-141 | an undoubled `}` raises 'Unexpected "}"' at the cursor position, both alone and inside a run; `"{0} "` raises because the whitespace run reaches the end |
| ParserProperties.PlaceholderParses | src/yyargs/yyargs.py:104-119 | wherever `{` digits `}` occurs at an iteration start, it gives `Positional(int(digits))` and parsing goes on after the `}` |
| ParserProperties.ParseFromStep | src/yyargs/yyargs.py:100-145 | unfolds `ParseFrom` by one iteration: the current iteration's node followed by the nodes of the rest (a restatement of the definition, kept as documentation) |
| ParserProperties.LiteralRunEscaped | src/yyargs/yyargs.py:127-145 | a literal run over escaped text (braces doubled) collects the unescaped text up to the end |
| ParserProperties.ParseEscaped | src/yyargs/yyargs.py:97-148 | any escaped suffix of the text parses, and its nodes render back to the unescaped text |
| ParserProperties.EscapeRoundTrip | src/yyargs/yyargs.py:97-163 | doubling the braces of a text whose only whitespace is `' '` and that does not end in whitespace gives a template that parses and renders back to the text, for every row |
| Dispatcher.Collect | src/yyargs/yyargs.py:159-163 | collecting results gives one value per input when it succeeds |
| Dispatcher.CollectOk | src/yyargs/yyargs.py:159-163 | collecting succeeds iff every step succeeds, and then holds every step's value in order |
| Dispatcher.CollectFirstError | src/yyargs/yyargs.py:159-163 | a failed collection reports the first failing step's error |
| Dispatcher.Compile | src/yyargs/yyargs.py:154 | compiling succeeds iff every token parses, and then gives one formatter per token, each that token parsed |
| Dispatcher.Row | src/yyargs/yyargs.py:156-157 | the row has at least one field |
| Dispatcher.RowJoin | src/yyargs/yyargs.py:156-157 | joining the row with `' '` gives the line without its line end, and no field contains a space |
| Dispatcher.RenderCommand | src/yyargs/yyargs.py:158-163 | a built command has one argument per template; a failure is the `IndexError` of one of the templates |
| Dispatcher.RenderCommandSpec | src/yyargs/yyargs.py:158-163 | a command renders iff every placeholder of every template is within the row; then it has one argument per template, each that template rendered |
| Dispatcher.RunLines | src/yyargs/yyargs.py:155-164 | no more commands run than there are lines |
| Dispatcher.RunLinesSpec | src/yyargs/yyargs.py:155-164 | the commands run are exactly the rendered lines before the first line that fails to render, which is the failure reported |
| Dispatcher.Xargs | src/yyargs/yyargs.py:153-164 | no more commands run than there are lines; a run without failure compiled every token and ran every line |
| Dispatcher.TemplatesCheckedFirst | src/yyargs/yyargs.py:154-155 | a bad template fails the run before any line is read: no command runs, whatever the input |
| Dispatcher.BadTemplateIsFirst | src/yyargs/yyargs.py:154 | the failure reported is the error of the first template that does not parse |
| Dispatcher.RenderTemplate | src/yyargs/yyargs.py:160-163 | the loop over a template's nodes computes `Render` |
| Dispatcher.BuildCommand | src/yyargs/yyargs.py:158-163 | the loop over the templates computes the rendered command |
| Dispatcher.CompileAll | src/yyargs/yyargs.py:154 | the list comprehension of `parse_fmt` computes `Compile` |
| Dispatcher.RunXargs | src/yyargs/yyargs.py:153-164 | `main`'s loops compute `Xargs`: the commands run and the failure that stopped the run |
| Dispatcher.RunLinesStops | src/yyargs/yyargs.py:155-164 | after a line fails, later lines change nothing |
| Dispatcher.ExampleRun | src/yyargs/yyargs.py:153-164 | templates `echo {0}-{1}` over the line `"a b\n"` run `["echo", "a-b"]` |
| DraftCursor.Stream.constructor | yyargs/yyargs.py:33-36 | a new cursor is at position 0 of the given text |
| DraftCursor.Stream.Incr | yyargs/yyargs.py:38-43 | the index stays in [-1, len]: the old index plus n, clamped |
| DraftCursor.Stream.Lookaround | yyargs/yyargs.py:45-49 | `lookaround(k)`, one ahead by default, gives the character at index+k when in range and `None` otherwise |
| DraftCursor.Stream.Consume | yyargs/yyargs.py:51-54 | `consume(k)` returns `lookaround(k)` taken before moving, then moves by k, clamped |
| DraftCursor.Stream.Prev | yyargs/yyargs.py:56-58 | `prev` steps back one (clamped) and returns the character one ahead of the new position |
| DraftCursor.Stream.SkipSpaces | yyargs/yyargs.py:60-65 | skips the maximal whitespace run one ahead of the cursor and returns its length; raises (`None`) when the run reaches the end |
| DraftCursor.Stream.Expect | yyargs/yyargs.py:67-71 | returns true iff `c` is one ahead, then advances exactly one; otherwise leaves the index unchanged |
| DraftCursor.Stream.IsAtEnd | yyargs/yyargs.py:73-74 | on a valid cursor, `is_at_end` holds exactly when the index equals the text length |
| DraftCursor.Stream.Curr | yyargs/yyargs.py:76-77 | the index, always in [-1, len] for a valid cursor |
| DraftCursor.Stream.AtEndHasNothingAhead | yyargs/yyargs.py:73-74 | at the end `lookaround()` is `None`; it is a character iff index+1 < len |
| DraftCursor.Substitute | yyargs/yyargs.py:19-27 | `BasicString` ignores the row; `Positional(p)` gives `row[p]` iff p < len(row) |
| DraftCursor.Add | yyargs/yyargs.py:29-30 | `BasicString(a) + BasicString(b)` has base `a + b` |
| DraftCursor.SubstituteAgrees | yyargs/yyargs.py:14-27 | relates the draft's nodes to the final ones: a draft node substitutes exactly like the node of `src/yyargs/yyargs.py` it became (it follows by unfolding both definitions) |
| DraftCursor.AddSubstitutes | yyargs/yyargs.py:26-30 | substituting a sum of strings is concatenating the substituted strings (it follows by unfolding the definitions) |
| Columns.Ord | src/colsof/colsof.py:22 | `ord(c) - ord('A') + 1` lies in 1..26 exactly when c is an upper-case letter `A`-`Z` |
| Columns.LetterValue | src/colsof/colsof.py:20-23 | the value accumulated over an `A`-`Z` name is at least 0, and 0 iff the name is empty |
| Columns.ColumnIndex | src/colsof/colsof.py:16-23 | a name of digits or of letters gives an index of at least 0; a name of letters gives 0 only when it is empty |
| Columns.ColToIndex | src/colsof/colsof.py:16-23 | the loop computes `ColumnIndex`: a non-empty digit string read as decimal, anything else upper-cased and read in base 26 |
| Columns.ExampleIndices | src/colsof/colsof.py:16-23 | `A`=1, `Z`=26, `AA`=27, `AZ`=`az`=52, `"0"`=0, `"12"`=12, `""`=0 |
| Columns.ColumnAppend | src/colsof/colsof.py:21-22 | appending a letter c gives 26·index + (ord(upper(c)) − ord('A') + 1) |
| Columns.UpperDigits | src/colsof/colsof.py:17-19 | upper-casing keeps a digit string unchanged and makes no non-digit string a digit string |
| Columns.CaseInsensitive | src/colsof/colsof.py:19 | a name and its upper-case spelling give the same index |
| Columns.SameLettersSameIndex | src/colsof/colsof.py:19-23 | names that differ only in case give the same index |
| Columns.UpperLetters | src/colsof/colsof.py:19 | upper-casing a name of letters gives a name of letters `A`-`Z` |
| Columns.ColumnIndexIsLetterValue | src/colsof/colsof.py:16-23 | on an `A`-`Z` name, `col_to_index` is its base-26 value |
| Columns.ColumnName | src/colsof/colsof.py:20-23 | the encoder, inverse of the decoding loop, produces only letters `A`-`Z` |
| Columns.DecodeEncode | src/colsof/colsof.py:20-23 | decoding the letters of the name of n gives n, so every number ≥ 0 is the value of some `A`-`Z` name |
| Columns.EncodeDecode | src/colsof/colsof.py:20-23 | encoding the index of an `A`-`Z` name gives back the name |
| Columns.LetterNamesInjective | src/colsof/colsof.py:20-23 | distinct `A`-`Z` names have distinct indices |
| Columns.ColumnIndexInjective | src/colsof/colsof.py:16-23 | two names of letters give the same index only when they spell the same letters, ignoring case |
| Columns.Converted | src/colsof/colsof.py:39 | one converted index per column given |
| Columns.SortInPlace | src/colsof/colsof.py:40 | `sort()` leaves the list ascending and a permutation of what it was |
| Columns.Insert | src/colsof/colsof.py:40 | one insertion step sorts `a[..i+1]`, which keeps its elements, and leaves `a[i+1..]` unchanged |
| Columns.Sink | src/colsof/colsof.py:40 | the swap loop sorts `a[..i+1]`, leaves `a[i+1..]` unchanged and keeps the elements of the array |
| Columns.Swap | src/colsof/colsof.py:40 | exchanging two elements keeps the elements |
| Columns.ColumnBounds | src/colsof/colsof.py:39-41 | after converting and sorting, element 0 is the least converted column and the last element the greatest, both among them |
| Columns.SortedBounds | src/colsof/colsof.py:40-41 | in a sorted permutation the first element is the minimum and the last the maximum |
| TextSplit.Skipped | src/textsplit/textsplit.py:18 | `args.ignore_empty and not line.strip()`: the line is passed over without being split |
| TextSplit.SkippedIffBlank | src/textsplit/textsplit.py:18 | under `--ignore-empty` the lines passed over are exactly the blank ones, and without it none is |
| TextSplit.Emit | src/textsplit/textsplit.py:21-23 | a part prints at most one line, and prints nothing iff it is all whitespace |
| TextSplit.Kept | src/textsplit/textsplit.py:20-23 | a line prints at most as many parts as it splits into |
| TextSplit.LineParts | src/textsplit/textsplit.py:20-23 | a line prints at most `line.count(d) + 1` parts |
| TextSplit.KeptLength | src/textsplit/textsplit.py:21-22 | the parts printed and the blank parts skipped together are all the parts |
| TextSplit.Run | src/textsplit/textsplit.py:17-23 | a run with a non-empty delimiter never raises |
| TextSplit.SplitLines | src/textsplit/textsplit.py:17-23 | the nested loops print exactly `Run`: the stripped non-blank parts of every line, in order, or stop at the `ValueError` of an empty delimiter |
| TextSplit.RunStep | src/textsplit/textsplit.py:17-23 | one more line is skipped, raises, or appends its printed parts |
| TextSplit.RaisedPersists | src/textsplit/textsplit.py:17-20 | once the run raised, further lines print nothing |
| TextSplit.KeptAppend | src/textsplit/textsplit.py:20-23 | parts are handled one by one: the output for two lists of parts is the two outputs concatenated |
| TextSplit.KeptTrimmed | src/textsplit/textsplit.py:21-23 | every printed part is non-empty, not blank, and has no surrounding whitespace |
| TextSplit.LinePartsTrimmed | src/textsplit/textsplit.py:20-23 | every part printed for a line is non-empty and stripped |
| TextSplit.LinePartsCount | src/textsplit/textsplit.py:20-22 | a line prints exactly `line.count(d) + 1` parts less the blank ones |
| TextSplit.NoDelimiterOnePart | src/textsplit/textsplit.py:20-23 | a line without the delimiter prints at most one part, the stripped line |
| TextSplit.SplitBlank | src/textsplit/textsplit.py:20 | every part of a blank line is blank |
| TextSplit.KeptBlank | src/textsplit/textsplit.py:21-22 | blank parts print nothing |
| TextSplit.BlankLinePrintsNothing | src/textsplit/textsplit.py:18-22 | a blank line prints nothing, skipped or not |
| TextSplit.RunPrintsEveryLine | src/textsplit/textsplit.py:17-23 | with a delimiter, the run prints every line's parts, in input order, and never raises |
| TextSplit.IgnoreEmptyNoEffect | src/textsplit/textsplit.py:18 | with a delimiter, `--ignore-empty` does not change the output |
| TextSplit.AllPartsAppend | src/textsplit/textsplit.py:17 | lines are independent: the output for two blocks of lines is the two outputs concatenated |
| TextSplit.EmptyDelimiterRaises | src/textsplit/textsplit.py:20 | with an empty delimiter nothing is printed, and the run raises iff some line is not skipped |
| Text.IsSpace | src/yyargs/yyargs.py:80 | exactly the characters for which `str.isspace` is true |
| Text.SpaceClass | src/yyargs/yyargs.py:80 | the ASCII whitespace characters are whitespace; digits, letters and braces are not |
| Text.IsDigit | src/yyargs/yyargs.py:113 | the characters `0`-`9`, for which `str.isdigit` is true |
| Text.DigitClass | src/yyargs/yyargs.py:113 | a digit is one of the ten characters `0`-`9`, and no digit is whitespace |
| Text.Spaces | src/yyargs/yyargs.py:103 | `' ' * n` is n spaces |
| Text.SpaceRun | src/yyargs/yyargs.py:80-82 | the whitespace run is maximal: all whitespace, ending at the end or at a non-whitespace character |
| Text.DigitRun | src/yyargs/yyargs.py:113-115 | the digit run is maximal: all digits, ending at the end or at a non-digit |
| Text.DecimalLeadingZero | src/yyargs/yyargs.py:119 | `int` ignores a leading zero |
| Text.Decimal | src/yyargs/yyargs.py:119 | `int` of a digit string is 0 iff every digit is `0` |
| Text.TrimStart | src/textsplit/textsplit.py:23 | `lstrip` removes a whitespace prefix and leaves no leading whitespace |
| Text.TrimEnd | src/textsplit/textsplit.py:23 | `rstrip` removes a whitespace suffix and leaves no trailing whitespace |
| Text.Strip | src/textsplit/textsplit.py:23 | `strip` gives a string no longer than its argument that neither begins nor ends with whitespace |
| Text.StripIsInnerSlice | src/textsplit/textsplit.py:23 | `strip` gives a slice with only whitespace around it and none at its ends |
| Text.StripEmptyIffBlank | src/textsplit/textsplit.py:21 | `not part.strip()` holds iff the part is all whitespace |
| Text.StripIdempotent | src/textsplit/textsplit.py:23 | stripping twice is stripping once |
| Text.Upper | src/colsof/colsof.py:19 | a lower-case letter becomes the upper-case letter of the same rank; anything else is unchanged |
| Text.UpperString | src/colsof/colsof.py:19 | `upper` applies to every character and keeps the length |
| Text.StripLineEnd | src/yyargs/yyargs.py:156 | `rstrip('\r\n')` removes a suffix of CR and LF characters, leaving none at the end |
| Fields.Find | src/yyargs/yyargs.py:157 | the first occurrence of the separator at or after k, or the end |
| Fields.Split | src/yyargs/yyargs.py:157 | `split` gives at least one field |
| Fields.Join | src/yyargs/yyargs.py:163 | `join` gives a string that begins with the first part |
| Fields.JoinSplit | src/yyargs/yyargs.py:157 | joining the fields with the separator gives back the string |
| Fields.SplitFieldsFree | src/yyargs/yyargs.py:157 | no field contains the separator |
| Fields.NoSeparatorOneField | src/textsplit/textsplit.py:20 | a string without the separator is one field, itself |
| Fields.SplitCount | src/textsplit/textsplit.py:20 | `split` gives exactly `count + 1` fields, `count` counting occurrences left to right without overlap |
| Fields.CountZeroIffAbsent | src/textsplit/textsplit.py:20 | the count of the separator is 0 iff it does not occur |
| Fields.ExampleOverlap | src/textsplit/textsplit.py:20 | occurrences do not overlap: `"aaa".count("aa")` is 1 and `"aaa".split("aa")` is `["", "a"]` |

## Left out

- Process and command-line plumbing. This covers `argparse`, reading `sys.stdin`, `subprocess.run` (src/yyargs/yyargs.py:150-168) and `print` in textsplit. Input lines are a parameter. Each command that would be run, and each line that would be printed, is an element of the result.
- Whether a command that runs succeeds. `subprocess.run` is a call into code outside the model, so its exit status is not modelled.
- A command that cannot be started. `subprocess.run` raises `OSError`, such as `FileNotFoundError`, when the program does not exist (src/yyargs/yyargs.py:164), and that ends the run. The model treats every rendered command as run and has no such failure.
- The unreachable branch `st.look() == '{'` after consuming a `{` (src/yyargs/yyargs.py:108-110). The `elif` at line 104 enters this branch only when the next character is not `{`, so the model has no such case.
- `__eq__`, `__str__` and `__repr__` of the nodes (src/yyargs/yyargs.py:24-31, 43-50). Dafny datatype equality stands in for node comparison.
- `parse_fmt` and its merge pass in the earlier draft (yyargs/yyargs.py:79-135). Only the draft's cursor and nodes are modelled.
- The `base` field of both `Stream` classes (src/yyargs/yyargs.py:54, yyargs/yyargs.py:34). It holds the template text and is only read to build error messages; the model's errors carry the position only.
- The workbook handling of colsof (src/colsof/colsof.py:25-67). It is openpyxl file I/O. The column conversion and the sort are modelled; reading the cells is not.
- The other tools of the repository: mapit, urandom, guid and install.py. They are file, randomness and library I/O, and are not part of this model.
- Unicode character classes beyond whitespace. `isspace` follows Python's whitespace set. `isdigit` accepts only the ASCII digits; Python also accepts other Unicode digits, such as superscripts. `upper` maps only ASCII letters; Python's `upper` also maps non-ASCII letters and can lengthen a string (`ß` becomes `SS`).
- Columns.ColToIndex: reads a character outside `A`-`Z` as `ord(c) - ord('A') + 1` on its code point, exactly as written. Only names of letters are proved to decode bijectively.
- The textsplit flags `--no-empty-write` and `--trim`. They are `store_true` with default true, so they are always on and the model has no switch for them.
- Parser.PlaceholderAt, Columns.ColumnIndex: do not model the `ValueError` that `int` raises on a decimal string of more than 4300 digits (the integer string conversion limit of Python 3.11 and later), at `int(pos)` (src/yyargs/yyargs.py:119) and `int(col)` (src/colsof/colsof.py:18). The model reads digit strings of any length, so `"{" + 4301 zeros + "}"` parses to `Positional(0)` where Python raises.
- Arithmetic on indices and column values does not overflow in Python, and the model's `int` and `nat` do not either.

=== FILE: columns.dfy ===
/**
 * Column names of src/colsof/colsof.py: `col_to_index` reads a column as
 * a decimal number or as a spreadsheet letter name in bijective base 26
 * (A = 1, ..., Z = 26, AA = 27), and `main` sorts the converted columns in
 * place to find the first and last column to read.
 */
module Columns {
  import opened Text

  /** `ord(c) - ord('A') + 1`: 1 for `A` up to 26 for `Z`; any other character gives some other integer. */
  function Ord(c: char): (r: int)
    ensures 'A' <= c <= 'Z' <==> 1 <= r <= 26
  {
    c as int - 'A' as int + 1
  }

  predicate IsUpperLetter(c: char) {
    'A' <= c <= 'Z'
  }

  predicate IsLetter(c: char) {
    'A' <= c <= 'Z' || 'a' <= c <= 'z'
  }

  predicate AllUpperLetters(s: string) {
    forall k :: 0 <= k < |s| ==> IsUpperLetter(s[k])
  }

  predicate AllLetters(s: string) {
    forall k :: 0 <= k < |s| ==> IsLetter(s[k])
  }

  /**
   * The value the loop of `col_to_index` accumulates over `s`:
   * `index * 26 + ord(c) - ord('A') + 1` per character. A name of letters
   * `A`-`Z` has value 0 iff it is empty, and at least 1 otherwise.
   */
  function LetterValue(s: string): (v: int)
    ensures AllUpperLetters(s) ==> v >= 0 && (v == 0 <==> s == [])
    decreases |s|
  {
    if s == [] then 0 else 26 * LetterValue(s[..|s| - 1]) + Ord(s[|s| - 1])
  }

  /**
   * `col_to_index(col)`: a non-empty all-digit name is read as a decimal,
   * anything else as letters after `upper()`. A name of digits or of letters
   * gives a non-negative index, and a name of letters gives 0 only when empty.
   */
  function ColumnIndex(col: string): (v: int)
    ensures AllDigits(col) || AllLetters(col) ==> v >= 0
    ensures AllLetters(col) ==> (v == 0 <==> col == [])
  {
    if col != [] && AllDigits(col) then Decimal(col)
    else UpperLetters(col); LetterValue(UpperString(col))
  }

  /** Upper-casing a name of letters gives a name of letters `A`-`Z`. */
  lemma UpperLetters(s: string)
    ensures AllLetters(s) ==> AllUpperLetters(UpperString(s))
  {
    if AllLetters(s) {
      forall k | 0 <= k < |s|
        ensures IsUpperLetter(UpperString(s)[k])
      {
        assert IsLetter(s[k]);
      }
    }
  }

  /** On a name of letters `A`-`Z`, `col_to_index` is the base-26 value itself. */
  lemma ColumnIndexIsLetterValue(s: string)
    requires AllUpperLetters(s)
    ensures ColumnIndex(s) == LetterValue(s)
  {
    if s != [] {
      assert !IsDigit(s[0]);
    }
    assert UpperString(s) == s;
  }

  /** `col_to_index`, with its loop. */
  method ColToIndex(col: string) returns (index: int)
    ensures index == ColumnIndex(col)
  {
    if col != [] && AllDigits(col) {
      return Decimal(col);
    }
    var upper := UpperString(col);
    index := 0;
    for i := 0 to |upper|
      invariant index == LetterValue(upper[..i])
    {
      assert upper[..i + 1][..i] == upper[..i];
      index := index * 26 + (upper[i] as int - 'A' as int) + 1;
    }
    assert upper[..|upper|] == upper;
  }

  /** The column names of the examples decode as in a spreadsheet. */
  lemma ExampleIndices()
    ensures ColumnIndex("A") == 1 && ColumnIndex("Z") == 26
    ensures ColumnIndex("AA") == 27 && ColumnIndex("AZ") == 52
    ensures ColumnIndex("az") == 52
    ensures ColumnIndex("0") == 0 && ColumnIndex("12") == 12
    ensures ColumnIndex("") == 0
  {
    assert "AA"[..1] == "A" && "AZ"[..1] == "A";
    assert UpperString("A") == "A" && UpperString("Z") == "Z";
    assert UpperString("AA") == "AA" && UpperString("AZ") == "AZ" && UpperString("az") == "AZ";
    assert "12"[..1] == "1";
  }

  /** Appending a letter multiplies by 26 and adds the letter's rank. */
  lemma ColumnAppend(s: string, c: char)
    requires AllLetters(s) && IsLetter(c)
    ensures ColumnIndex(s + [c]) == 26 * ColumnIndex(s) + Ord(Upper(c))
  {
    assert !IsDigit((s + [c])[|s|]);
    if s != [] {
      assert !IsDigit(s[0]);
    }
    assert UpperString(s + [c])[..|s|] == UpperString(s);
  }

  /** Upper-casing changes no digit, and turns no other character into a digit. */
  lemma UpperDigits(s: string)
    ensures AllDigits(UpperString(s)) <==> AllDigits(s)
    ensures AllDigits(s) ==> UpperString(s) == s
  {
    if !AllDigits(s) {
      var k :| 0 <= k < |s| && !IsDigit(s[k]);
      assert !IsDigit(UpperString(s)[k]);
    }
  }

  /** Decoding ignores case: a name and its upper-case spelling give the same index. */
  lemma CaseInsensitive(s: string)
    ensures ColumnIndex(s) == ColumnIndex(UpperString(s))
  {
    UpperDigits(s);
    assert UpperString(UpperString(s)) == UpperString(s);
  }

  /** Hence two names that differ only in case give the same index. */
  lemma SameLettersSameIndex(s: string, t: string)
    requires UpperString(s) == UpperString(t)
    ensures ColumnIndex(s) == ColumnIndex(t)
  {
    CaseInsensitive(s);
    CaseInsensitive(t);
  }

  /** The letter name of a column number: the inverse of `LetterValue` on names of `A`-`Z`. */
  function ColumnName(n: nat): (s: string)
    ensures AllUpperLetters(s)
    decreases n
  {
    if n == 0 then []
    else ColumnName((n - 1) / 26) + [('A' as int + (n - 1) % 26) as char]
  }

  /** Encoding a number and decoding the name gives the number back. */
  lemma {:induction false} DecodeEncode(n: nat)
    ensures LetterValue(ColumnName(n)) == n
    decreases n
  {
    if n > 0 {
      var s := ColumnName(n);
      DecodeEncode((n - 1) / 26);
      assert s[..|s| - 1] == ColumnName((n - 1) / 26);
    }
  }

  /** Decoding a name of letters `A`-`Z` and encoding the value gives the name back. */
  lemma {:induction false} EncodeDecode(s: string)
    requires AllUpperLetters(s)
    ensures LetterValue(s) >= 0 && ColumnName(LetterValue(s)) == s
    decreases |s|
  {
    if s != [] {
      var init, c := s[..|s| - 1], s[|s| - 1];
      EncodeDecode(init);
      DivMod26(LetterValue(init), Ord(c));
      assert s == init + [c];
    }
  }

  /** Bijective base 26: `26 * q + d - 1` divides by 26 into `q` and remainder `d - 1` for a digit `1 <= d <= 26`. */
  lemma DivMod26(q: int, d: int)
    requires 1 <= d <= 26
    ensures (26 * q + d - 1) / 26 == q && (26 * q + d - 1) % 26 == d - 1
  {
  }

  /** Distinct names of letters `A`-`Z` give distinct indices. */
  lemma LetterNamesInjective(s: string, t: string)
    requires AllUpperLetters(s) && AllUpperLetters(t) && LetterValue(s) == LetterValue(t)
    ensures s == t
  {
    EncodeDecode(s);
    EncodeDecode(t);
  }

  /** Two names of letters give the same column only when they spell the same letters, ignoring case. */
  lemma ColumnIndexInjective(s: string, t: string)
    requires AllLetters(s) && AllLetters(t) && ColumnIndex(s) == ColumnIndex(t)
    ensures UpperString(s) == UpperString(t)
  {
    CaseInsensitive(s);
    CaseInsensitive(t);
    UpperLetters(s);
    UpperLetters(t);
    ColumnIndexIsLetterValue(UpperString(s));
    ColumnIndexIsLetterValue(UpperString(t));
    LetterNamesInjective(UpperString(s), UpperString(t));
  }

  predicate Sorted(s: seq<int>) {
    forall x, y :: 0 <= x < y < |s| ==> s[x] <= s[y]
  }

  /** `[col_to_index(col) for col in args.columns]` */
  function Converted(columns: seq<string>): (v: seq<int>)
    ensures |v| == |columns|
  {
    seq(|columns|, k requires 0 <= k < |columns| => ColumnIndex(columns[k]))
  }

  /** `list.sort()` on the converted columns: in place, ascending, the same values. */
  method SortInPlace(a: array<int>)
    modifies a
    ensures Sorted(a[..])
    ensures multiset(a[..]) == multiset(old(a[..]))
  {
    var i := 0;
    while i < a.Length
      invariant 0 <= i <= a.Length
      invariant Sorted(a[..i])
      invariant multiset(a[..]) == multiset(old(a[..]))
    {
      Insert(a, i);
      i := i + 1;
    }
    assert a[..a.Length] == a[..];
  }

  /** Moves `a[i]` left past every larger element, so that `a[..i + 1]` is sorted. */
  method Insert(a: array<int>, i: int)
    requires 0 <= i < a.Length && Sorted(a[..i])
    modifies a
    ensures Sorted(a[..i + 1])
    ensures multiset(a[..i + 1]) == multiset(old(a[..i + 1]))
    ensures a[i + 1..] == old(a[i + 1..])
    ensures multiset(a[..]) == multiset(old(a[..]))
  {
    Sink(a, i);
    PrefixMultiset(a[..], old(a[..]), i + 1);
  }

  /** The loop of `Insert`: swaps `a[j]` with its left neighbour while that is larger. */
  method Sink(a: array<int>, i: int)
    requires 0 <= i < a.Length && Sorted(a[..i])
    modifies a
    ensures Sorted(a[..i + 1])
    ensures a[i + 1..] == old(a[i + 1..])
    ensures multiset(a[..]) == multiset(old(a[..]))
  {
    var j := i;
    while j > 0 && a[j - 1] > a[j]
      invariant 0 <= j <= i
      invariant Inserting(a[..], i, j)
      invariant a[i + 1..] == old(a[i + 1..])
      invariant multiset(a[..]) == multiset(old(a[..]))
    {
      InsertStep(a[..], i, j);
      Swap(a, j - 1, j);
      j := j - 1;
    }
  }

  /** While `s[j]` moves left: `s[..i + 1]` without position `j` is sorted, and `s[j]` is below everything to its right. */
  predicate Inserting(s: seq<int>, i: int, j: int)
    requires 0 <= j <= i < |s|
  {
    (forall x, y :: 0 <= x < y <= i && x != j && y != j ==> s[x] <= s[y]) &&
    (forall y :: j < y <= i ==> s[j] < s[y])
  }

  /** Swapping `s[j]` with a larger left neighbour moves the hole one place left and leaves the suffix after `i` alone. */
  lemma InsertStep(s: seq<int>, i: int, j: int)
    requires 0 < j <= i < |s| && Inserting(s, i, j) && s[j - 1] > s[j]
    ensures Inserting(s[j - 1 := s[j]][j := s[j - 1]], i, j - 1)
    ensures s[j - 1 := s[j]][j := s[j - 1]][i + 1..] == s[i + 1..]
  {
  }

  /** Two sequences with the same elements and the same suffix after `n` have the same elements before `n`. */
  lemma PrefixMultiset(s: seq<int>, t: seq<int>, n: int)
    requires 0 <= n <= |s| == |t| && multiset(s) == multiset(t) && s[n..] == t[n..]
    ensures multiset(s[..n]) == multiset(t[..n])
  {
    assert s == s[..n] + s[n..] && t == t[..n] + t[n..];
    assert multiset(s[..n]) == multiset(s) - multiset(s[n..]);
    assert multiset(t[..n]) == multiset(t) - multiset(t[n..]);
  }

  /** Exchanges two elements; the multiset of elements stays the same. */
  method Swap(a: array<int>, x: int, y: int)
    requires 0 <= x < a.Length && 0 <= y < a.Length
    modifies a
    ensures a[..] == old(a[..])[x := old(a[y])][y := old(a[x])]
    ensures forall k :: 0 <= k < a.Length && k != x && k != y ==> a[k] == old(a[k])
    ensures multiset(a[..]) == multiset(old(a[..]))
  {
    a[x], a[y] := a[y], a[x];
  }

  /** The least and greatest converted column, read as `converted_columns[0]` and `[-1]` after the sort. */
  method ColumnBounds(columns: seq<string>) returns (lo: int, hi: int)
    requires |columns| > 0
    ensures lo in Converted(columns) && hi in Converted(columns)
    ensures forall k :: 0 <= k < |columns| ==> lo <= Converted(columns)[k] <= hi
  {
    var a := new int[|columns|];
    for k := 0 to |columns|
      invariant a[..k] == Converted(columns)[..k]
    {
      a[k] := ColToIndex(columns[k]);
    }
    assert a[..] == Converted(columns);
    SortInPlace(a);
    lo, hi := a[0], a[a.Length - 1];
    SortedBounds(a[..], Converted(columns));
  }

  /** In a sorted rearrangement of `v`, the first element is the least of `v` and the last the greatest. */
  lemma SortedBounds(s: seq<int>, v: seq<int>)
    requires Sorted(s) && |s| > 0 && multiset(s) == multiset(v)
    ensures s[0] in v && s[|s| - 1] in v
    ensures forall k :: 0 <= k < |v| ==> s[0] <= v[k] <= s[|s| - 1]
  {
    assert s[0] in multiset(s) && s[|s| - 1] in multiset(s);
    forall k | 0 <= k < |v|
      ensures s[0] <= v[k] <= s[|s| - 1]
    {
      assert v[k] in multiset(v);
      var m :| 0 <= m < |s| && s[m] == v[k];
    }
  }
}

=== FILE: cursor.dfy ===
/**
 * The template cursor of src/yyargs/yyargs.py: a read-only character list
 * and a mutable index that stays within [-1, len], where -1 means "before
 * the start" and len means "at the end".
 */
module Cursor {
  import opened Results
  import opened Text

  /** `_incr`'s clamping: a position above `len` becomes `len`, one below 0 becomes -1. */
  function Clamp(t: int, len: nat): (r: int)
    ensures -1 <= r <= len
    ensures -1 <= t <= len ==> r == t
    ensures t > len ==> r == len
    ensures t < -1 ==> r == -1
  {
    if t >= len then len else if t < 0 then -1 else t
  }

  /** Bounds-checked indexing: the character at `t`, or `None` outside the text. */
  function At(text: seq<char>, t: int): (c: Option<char>)
    ensures c.Some? <==> 0 <= t < |text|
    ensures c.Some? ==> c.value == text[t]
  {
    if t < 0 || t >= |text| then None else Some(text[t])
  }

  class Stream {
    /** The characters of the template (`_s`); never changed after construction. */
    const text: seq<char>
    /** The current position (`_i`). */
    var index: int

    ghost predicate Valid()
      reads this
    {
      -1 <= index <= |text|
    }

    constructor (s: string)
      ensures text == s && index == 0 && Valid()
    {
      text := s;
      index := 0;
    }

    /** `_incr`: moves by `n` and clamps to [-1, len]. */
    method Incr(n: int)
      modifies this
      ensures Valid()
      ensures index == Clamp(old(index) + n, |text|)
    {
      index := index + n;
      if index >= |text| {
        index := |text|;
      }
      if index < 0 {
        index := -1;
      }
    }

    /** `look`: the character `k` places from the cursor, `None` out of range; never fails. */
    function Look(k: int := 0): (c: Option<char>)
      reads this
      ensures c.Some? <==> 0 <= index + k < |text|
      ensures c.Some? ==> c.value == text[index + k]
    {
      At(text, index + k)
    }

    /** `consume`: moves forward by `k` (clamped). */
    method Consume(k: int := 1)
      modifies this
      ensures Valid()
      ensures index == Clamp(old(index) + k, |text|)
    {
      Incr(k);
    }

    /** `prev`: steps back one (clamped) and returns the character now under the cursor. */
    method Prev() returns (c: Option<char>)
      modifies this
      ensures Valid()
      ensures index == Clamp(old(index) - 1, |text|)
      ensures c == At(text, index)
    {
      Incr(-1);
      c := Look();
    }

    /**
     * `skip_spaces`: advances over the whitespace run under the cursor and
     * returns its length. When the cursor is off the text, or the run
     * reaches the end of the text, `look()` gives `None` and
     * `None.isspace()` raises: that is the `None` result here.
     */
    method SkipSpaces() returns (skipped: Option<nat>)
      requires Valid()
      modifies this
      ensures Valid()
      ensures old(index) < 0 ==> skipped == None && index == old(index)
      ensures old(index) >= 0 ==>
                var n := SpaceRun(text, old(index));
                (skipped.Some? <==> old(index) + n < |text|) &&
                (skipped.Some? ==> skipped.value == n && index == old(index) + n) &&
                (skipped.None? ==> index == |text|)
    {
      var count: nat := 0;
      while true
        invariant Valid()
        invariant index == old(index) + count
        invariant old(index) < 0 ==> count == 0
        invariant old(index) >= 0 ==> SpaceRun(text, old(index)) == count + SpaceRun(text, index)
        decreases |text| - index
      {
        var c := Look();
        if c.None? {
          return None;
        }
        if !IsSpace(c.value) {
          return Some(count);
        }
        count := count + 1;
        Consume();
      }
    }

    /** `expect`: steps over `c` and answers true when it is under the cursor; otherwise stays put. */
    method Expect(c: char) returns (found: bool)
      requires Valid()
      modifies this
      ensures Valid()
      ensures found <==> old(Look()) == Some(c)
      ensures found ==> index == old(index) + 1
      ensures !found ==> index == old(index)
    {
      if Look() == Some(c) {
        Consume();
        return true;
      }
      return false;
    }

    /** `is_at_end`: past the last character; on a valid cursor exactly at the end of the text. */
    predicate IsAtEnd()
      reads this
      ensures Valid() ==> (IsAtEnd() <==> index == |text|)
    {
      index >= |text|
    }

    /** `curr`: the position, for error messages. */
    function Curr(): (i: int)
      reads this
      ensures Valid() ==> -1 <= i <= |text|
    {
      index
    }

    /** At the end there is nothing to look at, and before it there always is. */
    lemma AtEndIffNothingUnderCursor()
      requires Valid() && index >= 0
      ensures IsAtEnd() <==> Look() == None
    {
    }
  }
}

=== FILE: dispatcher.dfy ===
/**
 * The body of `main` in src/yyargs/yyargs.py (lines 153-164): every
 * command-line token is compiled with `parse_fmt` before any input is
 * read; then each input line is stripped of its line end, split on single
 * spaces into a row, and every template is rendered against that row to
 * give the argument vector that is run. An exception from `parse_fmt` or
 * from `substitute` is not caught, so it ends the run.
 */
module Dispatcher {
  import opened Results
  import opened Text
  import opened Fields
  import opened Template
  import opened Parser
  import ParserProperties

  /** The outcomes of a list of steps, collected until the first that failed. */
  function Collect<T, E>(xs: seq<Result<T, E>>): (r: Result<seq<T>, E>)
    ensures r.Ok? ==> |r.value| == |xs|
  {
    if xs == [] then Ok([])
    else
      match Collect(xs[..|xs| - 1])
      case Err(e) => Err(e)
      case Ok(vs) =>
        match xs[|xs| - 1]
        case Err(e) => Err(e)
        case Ok(v) => Ok(vs + [v])
  }

  /** Collecting succeeds exactly when every step did, and then holds every step's value in order. */
  lemma {:induction false} CollectOk<T, E>(xs: seq<Result<T, E>>)
    ensures Collect(xs).Ok? <==> forall k :: 0 <= k < |xs| ==> xs[k].Ok?
    ensures Collect(xs).Ok? ==> forall k :: 0 <= k < |xs| ==> Collect(xs).value[k] == xs[k].value
  {
    if xs != [] {
      var init := xs[..|xs| - 1];
      CollectOk(init);
      assert forall k :: 0 <= k < |init| ==> init[k] == xs[k];
    }
  }

  /** A failed collection reports the first step that failed. */
  lemma {:induction false} CollectFirstError<T, E>(xs: seq<Result<T, E>>)
    requires Collect(xs).Err?
    ensures exists k :: 0 <= k < |xs| && xs[k].Err? && Collect(xs).error == xs[k].error &&
                        forall m :: 0 <= m < k ==> xs[m].Ok?
  {
    var init := xs[..|xs| - 1];
    assert forall k :: 0 <= k < |init| ==> init[k] == xs[k];
    if Collect(init).Err? {
      CollectFirstError(init);
      var k :| 0 <= k < |init| && init[k].Err? && Collect(init).error == init[k].error &&
               forall m :: 0 <= m < k ==> init[m].Ok?;
      assert xs[k] == init[k];
    } else {
      CollectOk(init);
      assert xs[|xs| - 1].Err?;
    }
  }

  /** Once a prefix has failed, the steps after it change nothing. */
  lemma {:induction false} CollectErrorPersists<T, E>(xs: seq<Result<T, E>>, j: nat)
    requires j <= |xs| && Collect(xs[..j]).Err?
    ensures Collect(xs) == Collect(xs[..j])
    decreases |xs|
  {
    if j == |xs| {
      assert xs[..j] == xs;
    } else {
      var init := xs[..|xs| - 1];
      assert init[..j] == xs[..j];
      CollectErrorPersists(init, j);
    }
  }

  /** Collecting one more step. */
  lemma CollectSnoc<T, E>(xs: seq<Result<T, E>>, i: nat)
    requires i < |xs|
    ensures Collect(xs[..i + 1]) ==
            match Collect(xs[..i])
            case Err(e) => Err(e)
            case Ok(vs) => (match xs[i] case Err(e) => Err(e) case Ok(v) => Ok(vs + [v]))
  {
    assert xs[..i + 1][..i] == xs[..i];
  }

  /** `[parse_fmt(c) for c in args.command]`, one outcome per token. */
  function Parsed(commands: seq<string>): (xs: seq<Result<seq<Argument>, ParseError>>)
    ensures |xs| == |commands|
  {
    seq(|commands|, k requires 0 <= k < |commands| => Parse(commands[k]))
  }

  /** The formatter list, one formatter per token, or the error of the first token that does not parse. */
  function Compile(commands: seq<string>): (r: Result<seq<seq<Argument>>, ParseError>)
    ensures r.Ok? <==> forall k :: 0 <= k < |commands| ==> Parse(commands[k]).Ok?
    ensures r.Ok? ==> |r.value| == |commands| && forall k :: 0 <= k < |commands| ==> Parse(commands[k]) == Ok(r.value[k])
  {
    var xs := Parsed(commands);
    CollectOk(xs);
    assert forall k :: 0 <= k < |commands| ==> xs[k] == Parse(commands[k]);
    Collect(xs)
  }

  /** `line.rstrip('\r\n').split(' ')` */
  function Row(line: string): (row: seq<string>)
    ensures |row| >= 1
  {
    Split(StripLineEnd(line), " ")
  }

  /** Joining a row with single spaces gives back the line without its line end; no field holds a space. */
  lemma RowJoin(line: string)
    ensures Join(Row(line), " ") == StripLineEnd(line)
    ensures forall k :: 0 <= k < |Row(line)| ==> ' ' !in Row(line)[k]
  {
    JoinSplit(StripLineEnd(line), " ");
    SplitFieldsFree(StripLineEnd(line), " ");
    forall k, m | 0 <= k < |Row(line)| && 0 <= m < |Row(line)[k]|
      ensures Row(line)[k][m] != ' '
    {
      if Row(line)[k][m] == ' ' {
        assert OccursAt(Row(line)[k], " ", m);
        assert false;
      }
    }
  }

  /** Every template of the formatter rendered against `row`, one outcome per template. */
  function Rendered(formatter: seq<seq<Argument>>, row: seq<string>): (xs: seq<Result<string, RenderError>>)
    ensures |xs| == |formatter|
  {
    seq(|formatter|, k requires 0 <= k < |formatter| => Render(formatter[k], row))
  }

  /** The argument vector `cmd` built for one row, or the first `IndexError`, which is that of some template. */
  function RenderCommand(formatter: seq<seq<Argument>>, row: seq<string>): (r: Result<seq<string>, RenderError>)
    ensures r.Ok? ==> |r.value| == |formatter|
    ensures r.Err? ==> exists k :: 0 <= k < |formatter| && Render(formatter[k], row) == Err(r.error)
  {
    var xs := Rendered(formatter, row);
    if Collect(xs).Err? then
      CollectFirstError(xs);
      var k :| 0 <= k < |xs| && xs[k].Err? && Collect(xs).error == xs[k].error;
      assert Render(formatter[k], row) == xs[k];
      Collect(xs)
    else
      Collect(xs)
  }

  /** The argument vector has one argument per template, each the template rendered against the row. */
  lemma RenderCommandSpec(formatter: seq<seq<Argument>>, row: seq<string>)
    ensures RenderCommand(formatter, row).Ok? <==>
            forall k, m :: 0 <= k < |formatter| && 0 <= m < |formatter[k]| ==> InRange(formatter[k][m], row)
    ensures RenderCommand(formatter, row).Ok? ==>
            |RenderCommand(formatter, row).value| == |formatter| &&
            forall k :: 0 <= k < |formatter| ==> Ok(RenderCommand(formatter, row).value[k]) == Render(formatter[k], row)
  {
    var xs := Rendered(formatter, row);
    CollectOk(xs);
    forall k | 0 <= k < |formatter|
      ensures xs[k].Ok? <==> forall m :: 0 <= m < |formatter[k]| ==> InRange(formatter[k][m], row)
    {
      RenderOkIffInRange(formatter[k], row);
    }
  }

  /** What stopped a run. */
  datatype Failure =
    | BadTemplate(cause: ParseError)                // `parse_fmt` raised on a token
    | BadRow(line: nat, fault: RenderError)         // `substitute` raised on this input line

  /** The argument vectors that were run, in order, and what stopped the run if anything did. */
  datatype Ran = Ran(executed: seq<seq<string>>, failure: Option<Failure>)

  /** The run over the input lines with a compiled formatter. */
  function RunLines(formatter: seq<seq<Argument>>, lines: seq<string>): (r: Ran)
    ensures |r.executed| <= |lines|
  {
    if lines == [] then Ran([], None)
    else
      var prev := RunLines(formatter, lines[..|lines| - 1]);
      if prev.failure.Some? then prev
      else
        match RenderCommand(formatter, Row(lines[|lines| - 1]))
        case Err(e) => Ran(prev.executed, Some(BadRow(|lines| - 1, e)))
        case Ok(cmd) => Ran(prev.executed + [cmd], None)
  }

  /** `main`: compile every token, then run one argument vector per input line. */
  function Xargs(commands: seq<string>, lines: seq<string>): (r: Ran)
    ensures |r.executed| <= |lines|
    ensures r.failure.None? ==> Compile(commands).Ok? && |r.executed| == |lines|
  {
    match Compile(commands)
    case Err(e) => Ran([], Some(BadTemplate(e)))
    case Ok(formatter) => RunLinesSpec(formatter, lines); RunLines(formatter, lines)
  }

  /**
   * Without a failure every line ran, in order, with the vector rendered
   * from its row; a failure at line `i` means lines before it ran, line
   * `i` raised with that error, and nothing after it ran.
   */
  lemma {:induction false} RunLinesSpec(formatter: seq<seq<Argument>>, lines: seq<string>)
    ensures var r := RunLines(formatter, lines);
            (r.failure.None? ==> |r.executed| == |lines|) &&
            (r.failure.Some? ==> r.failure.value.BadRow? && r.failure.value.line == |r.executed| < |lines| &&
                                 RenderCommand(formatter, Row(lines[|r.executed|])) == Err(r.failure.value.fault)) &&
            forall k :: 0 <= k < |r.executed| ==> RenderCommand(formatter, Row(lines[k])) == Ok(r.executed[k])
  {
    if lines != [] {
      var init := lines[..|lines| - 1];
      RunLinesSpec(formatter, init);
      assert forall k :: 0 <= k < |init| ==> init[k] == lines[k];
    }
  }

  /** A token that does not parse stops everything before the first line is read. */
  lemma TemplatesCheckedFirst(commands: seq<string>, lines1: seq<string>, lines2: seq<string>)
    requires Compile(commands).Err?
    ensures Xargs(commands, lines1) == Xargs(commands, lines2)
    ensures Xargs(commands, lines1).executed == []
  {
  }

  /** The error reported for the tokens is that of the first token that does not parse. */
  lemma BadTemplateIsFirst(commands: seq<string>, lines: seq<string>)
    requires Compile(commands).Err?
    ensures Xargs(commands, lines).failure == Some(BadTemplate(Compile(commands).error))
    ensures exists k :: 0 <= k < |commands| && Parse(commands[k]) == Err(Compile(commands).error) &&
                        forall m :: 0 <= m < k ==> Parse(commands[m]).Ok?
  {
    var xs := Parsed(commands);
    CollectFirstError(xs);
    var k :| 0 <= k < |xs| && xs[k].Err? && Collect(xs).error == xs[k].error &&
             forall m :: 0 <= m < k ==> xs[m].Ok?;
    assert Parse(commands[k]) == xs[k];
    assert forall m :: 0 <= m < k ==> Parse(commands[m]) == xs[m];
  }

  /** The inner loop of `main`: `''.join(a.substitute(line) for a in f)`. */
  method RenderTemplate(f: seq<Argument>, row: seq<string>) returns (r: Result<string, RenderError>)
    ensures r == Render(f, row)
  {
    var arg: string := [];
    var i := 0;
    while i < |f|
      invariant 0 <= i <= |f|
      invariant Render(f[..i], row) == Ok(arg)
    {
      RenderAppend(f[..i], [f[i]], row);
      assert f[..i] + [f[i]] == f[..i + 1];
      assert [f[i]][1..] == [];
      match Substitute(f[i], row)
      case Err(e) =>
        RenderAppend(f[..i + 1], f[i + 1..], row);
        assert f[..i + 1] + f[i + 1..] == f;
        return Err(e);
      case Ok(x) =>
        assert x + [] == x;
        arg := arg + x;
      i := i + 1;
    }
    assert f[..i] == f;
    return Ok(arg);
  }

  /** The loop over the formatter: `cmd.append(''.join(arg))` for every template. */
  method BuildCommand(formatter: seq<seq<Argument>>, row: seq<string>) returns (r: Result<seq<string>, RenderError>)
    ensures r == RenderCommand(formatter, row)
  {
    ghost var xs := Rendered(formatter, row);
    var cmd: seq<string> := [];
    var i := 0;
    while i < |formatter|
      invariant 0 <= i <= |formatter|
      invariant Collect(xs[..i]) == Ok(cmd)
    {
      var arg := RenderTemplate(formatter[i], row);
      CollectSnoc(xs, i);
      if arg.Err? {
        CollectErrorPersists(xs, i + 1);
        return Err(arg.error);
      }
      cmd := cmd + [arg.value];
      i := i + 1;
    }
    assert xs[..i] == xs;
    return Ok(cmd);
  }

  /** `formatter = [parse_fmt(c) for c in args.command]` */
  method CompileAll(commands: seq<string>) returns (r: Result<seq<seq<Argument>>, ParseError>)
    ensures r == Compile(commands)
  {
    ghost var xs := Parsed(commands);
    var formatter: seq<seq<Argument>> := [];
    var i := 0;
    while i < |commands|
      invariant 0 <= i <= |commands|
      invariant Collect(xs[..i]) == Ok(formatter)
    {
      var t := ParseFmt(commands[i]);
      CollectSnoc(xs, i);
      if t.Err? {
        CollectErrorPersists(xs, i + 1);
        return Err(t.error);
      }
      formatter := formatter + [t.value];
      i := i + 1;
    }
    assert xs[..i] == xs;
    return Ok(formatter);
  }

  /** `main`: the argument vectors handed to `subprocess.run`, in order, and what stopped the run. */
  method RunXargs(commands: seq<string>, lines: seq<string>) returns (executed: seq<seq<string>>, failure: Option<Failure>)
    ensures Ran(executed, failure) == Xargs(commands, lines)
  {
    var compiled := CompileAll(commands);
    if compiled.Err? {
      return [], Some(BadTemplate(compiled.error));
    }
    var formatter := compiled.value;
    executed, failure := [], None;
    var i := 0;
    while i < |lines|
      invariant 0 <= i <= |lines|
      invariant RunLines(formatter, lines[..i]) == Ran(executed, None)
    {
      assert lines[..i + 1][..i] == lines[..i];
      var cmd := BuildCommand(formatter, Row(lines[i]));
      if cmd.Err? {
        failure := Some(BadRow(i, cmd.error));
        RunLinesStops(formatter, lines, i + 1);
        return;
      }
      executed := executed + [cmd.value];
      i := i + 1;
    }
    assert lines[..i] == lines;
  }

  /** After a line has failed, the later lines change nothing. */
  lemma {:induction false} RunLinesStops(formatter: seq<seq<Argument>>, lines: seq<string>, j: nat)
    requires j <= |lines| && RunLines(formatter, lines[..j]).failure.Some?
    ensures RunLines(formatter, lines) == RunLines(formatter, lines[..j])
    decreases |lines|
  {
    if j == |lines| {
      assert lines[..j] == lines;
    } else {
      var init := lines[..|lines| - 1];
      assert init[..j] == lines[..j];
      RunLinesStops(formatter, init, j);
    }
  }

  /** `yyargs echo "{0}-{1}"` on the input line "a b" runs `echo a-b`. */
  lemma ExampleRun()
    ensures Xargs(["echo", "{0}-{1}"], ["a b\n"]) == Ran([["echo", "a-b"]], None)
  {
    var commands := ["echo", "{0}-{1}"];
    var f := [[Literal("echo")], [Positional(0), Literal("-"), Positional(1)]];
    ExampleCompile();
    ExampleRow();
    var row := ["a", "b"];
    ExampleRenderCommand(f, row);
    var lines := ["a b\n"];
    assert lines[..0] == [];
    assert RunLines(f, lines) == Ran([] + [["echo", "a-b"]], None);
  }

  lemma ExampleCompile()
    ensures Compile(["echo", "{0}-{1}"]) == Ok([[Literal("echo")], [Positional(0), Literal("-"), Positional(1)]])
  {
    ParserProperties.ExampleWord();
    ParserProperties.ExampleTwoPlaceholders();
    ExampleCompileAt(["echo", "{0}-{1}"]);
  }

  lemma ExampleCompileAt(commands: seq<string>)
    requires commands == ["echo", "{0}-{1}"]
    requires Parse(commands[0]) == Ok([Literal("echo")])
    requires Parse(commands[1]) == Ok([Positional(0), Literal("-"), Positional(1)])
    ensures Compile(commands) == Ok([[Literal("echo")], [Positional(0), Literal("-"), Positional(1)]])
  {
    var xs := Parsed(commands);
    assert xs == [Parse(commands[0]), Parse(commands[1])];
    CollectPair(xs);
  }

  /** Collecting two successful steps. */
  lemma CollectPair<T, E>(xs: seq<Result<T, E>>)
    requires |xs| == 2 && xs[0].Ok? && xs[1].Ok?
    ensures Collect(xs) == Ok([xs[0].value, xs[1].value])
  {
    assert xs[..1][..0] == [];
    assert [] + [xs[0].value] == [xs[0].value];
    assert Collect(xs[..1]) == Ok([xs[0].value]);
    assert xs[..|xs| - 1] == xs[..1];
    assert [xs[0].value] + [xs[1].value] == [xs[0].value, xs[1].value];
  }

  lemma ExampleRow()
    ensures Row("a b\n") == ["a", "b"]
  {
    ExampleRowAt("a b\n");
  }

  lemma ExampleRowAt(line: string)
    requires line == "a b\n"
    ensures Row(line) == ["a", "b"]
  {
    var s := line[..3];
    assert s == "a b";
    assert StripLineEnd(s) == s;
    assert StripLineEnd(line) == s;
    assert s[0..1] == "a" && s[1..2] == " ";
    assert Find(s, " ", 1) == 1;
    assert Find(s, " ", 0) == 1;
    assert s[2..] == "b";
    assert Find("b", " ", 0) == 1;
    assert Split("b", " ") == ["b"];
    assert s[..1] == "a";
    assert Split(s, " ") == ["a"] + ["b"];
  }

  lemma ExampleRenderCommand(f: seq<seq<Argument>>, row: seq<string>)
    requires f == [[Literal("echo")], [Positional(0), Literal("-"), Positional(1)]]
    requires row == ["a", "b"]
    ensures RenderCommand(f, row) == Ok(["echo", "a-b"])
  {
    var t := f[1];
    assert t[2..] == [Positional(1)] && t[2..][1..] == [];
    assert "b" + [] == "b" && "-" + "b" == "-b" && "a" + "-b" == "a-b" && "echo" + [] == "echo";
    assert Render(t[2..], row) == Ok("b");
    assert t[1..][0] == Literal("-") && t[1..][1..] == t[2..];
    assert Render(t[1..], row) == Ok("-b");
    assert t[0] == Positional(0) && row[0] == "a";
    assert Render(t, row) == Ok("a-b");
    assert f[0][1..] == [];
    assert Render(f[0], row) == Ok("echo");
    var xs := Rendered(f, row);
    assert xs == [Render(f[0], row), Render(f[1], row)];
    CollectPair(xs);
  }
}

=== FILE: draft_cursor.dfy ===
/**
 * The earlier cursor and node classes of yyargs/yyargs.py. The cursor
 * clamps like the one of src/yyargs/yyargs.py, but its lookahead
 * `lookaround` looks one place ahead by default, and `consume` returns the
 * character it moves onto.
 */
module DraftCursor {
  import opened Results
  import opened Text
  import opened Template
  import opened Cursor

  class Stream {
    /** The characters of the template (`_s`); never changed after construction. */
    const text: seq<char>
    /** The current position (`_i`). */
    var index: int

    ghost predicate Valid()
      reads this
    {
      -1 <= index <= |text|
    }

    constructor (s: string)
      ensures text == s && index == 0 && Valid()
    {
      text := s;
      index := 0;
    }

    /** `_incr`: moves by `n` and clamps to [-1, len]. */
    method Incr(n: int)
      modifies this
      ensures Valid()
      ensures index == Clamp(old(index) + n, |text|)
    {
      index := index + n;
      if index >= |text| {
        index := |text|;
      }
      if index < 0 {
        index := -1;
      }
    }

    /** `lookaround`: the character `k` places from the cursor (one ahead by default), `None` out of range. */
    function Lookaround(k: int := 1): (c: Option<char>)
      reads this
      ensures c.Some? <==> 0 <= index + k < |text|
      ensures c.Some? ==> c.value == text[index + k]
    {
      At(text, index + k)
    }

    /** `consume`: moves by `k` (clamped) and returns the character `k` places ahead of where it started. */
    method Consume(k: int := 1) returns (c: Option<char>)
      modifies this
      ensures Valid()
      ensures c == At(text, old(index) + k)
      ensures index == Clamp(old(index) + k, |text|)
      ensures c.Some? ==> c == At(text, index)
    {
      c := Lookaround(k);
      Incr(k);
    }

    /** `prev`: steps back one (clamped) and returns the character one ahead of the new position. */
    method Prev() returns (c: Option<char>)
      modifies this
      ensures Valid()
      ensures index == Clamp(old(index) - 1, |text|)
      ensures c == At(text, index + 1)
    {
      Incr(-1);
      c := Lookaround();
    }

    /**
     * `skip_spaces`: advances while the character one ahead is whitespace
     * and returns how many steps it took. When the character one ahead is
     * missing, `None.isspace()` raises: that is the `None` result here.
     */
    method SkipSpaces() returns (skipped: Option<nat>)
      requires Valid()
      modifies this
      ensures Valid()
      ensures old(index) + 1 > |text| ==> skipped == None && index == old(index)
      ensures old(index) + 1 <= |text| ==>
                var n := SpaceRun(text, old(index) + 1);
                index == old(index) + n &&
                (skipped.Some? <==> old(index) + 1 + n < |text|) &&
                (skipped.Some? ==> skipped.value == n)
    {
      var count: nat := 0;
      while true
        invariant Valid()
        invariant index == old(index) + count
        invariant old(index) + 1 > |text| ==> count == 0
        invariant old(index) + 1 <= |text| ==>
                    index + 1 <= |text| && SpaceRun(text, old(index) + 1) == count + SpaceRun(text, index + 1)
        decreases |text| - index
      {
        var c := Lookaround();
        if c.None? {
          return None;
        }
        if !IsSpace(c.value) {
          return Some(count);
        }
        count := count + 1;
        var _ := Consume();
      }
    }

    /** `expect`: when `c` is one ahead, steps onto it and answers true; otherwise stays put. */
    method Expect(c: char) returns (found: bool)
      requires Valid()
      modifies this
      ensures Valid()
      ensures found <==> old(Lookaround()) == Some(c)
      ensures found ==> index == old(index) + 1
      ensures !found ==> index == old(index)
    {
      if Lookaround() == Some(c) {
        var _ := Consume();
        return true;
      }
      return false;
    }

    /** `is_at_end`: past the last character; on a valid cursor exactly at the end of the text. */
    predicate IsAtEnd()
      reads this
      ensures Valid() ==> (IsAtEnd() <==> index == |text|)
    {
      index >= |text|
    }

    /** `curr`: the position, unchanged. */
    function Curr(): (i: int)
      reads this
      ensures Valid() ==> -1 <= i <= |text|
    {
      index
    }

    /** At the end there is nothing one ahead; before the last character there always is. */
    lemma AtEndHasNothingAhead()
      requires Valid()
      ensures IsAtEnd() ==> Lookaround() == None
      ensures index + 1 < |text| <==> Lookaround().Some?
    {
    }
  }

  /** The node classes of the earlier draft: `BasicString` and `Positional`. */
  datatype Piece = BasicString(base: string) | Positional(pos: nat)

  /** `substitute`: a `BasicString` ignores the row; `Positional(p)` is `row[p]` or raises `IndexError`. */
  function Substitute(piece: Piece, row: seq<string>): (r: Result<string, RenderError>)
    ensures piece.BasicString? ==> r == Ok(piece.base)
    ensures piece.Positional? ==> (r.Ok? <==> piece.pos < |row|)
    ensures piece.Positional? && r.Ok? ==> r.value == row[piece.pos]
  {
    match piece
    case BasicString(base) => Ok(base)
    case Positional(pos) => if pos < |row| then Ok(row[pos]) else Err(IndexOutOfRange(pos, |row|))
  }

  /** `BasicString.__add__` */
  function Add(a: Piece, b: Piece): (r: Piece)
    requires a.BasicString? && b.BasicString?
    ensures r.BasicString? && |r.base| == |a.base| + |b.base|
    ensures r.base[..|a.base|] == a.base && r.base[|a.base|..] == b.base
  {
    BasicString(a.base + b.base)
  }

  /** The node of src/yyargs/yyargs.py that a draft node became. */
  function Promote(piece: Piece): Argument
  {
    match piece
    case BasicString(base) => Literal(base)
    case Positional(pos) => Argument.Positional(pos)
  }

  /** Both drafts substitute alike: a draft node and the node it became give the same outcome on every row. */
  lemma SubstituteAgrees(piece: Piece, row: seq<string>)
    ensures Substitute(piece, row) == Template.Substitute(Promote(piece), row)
  {
  }

  /** Adding two strings and substituting is substituting both and concatenating. */
  lemma AddSubstitutes(a: Piece, b: Piece, row: seq<string>)
    requires a.BasicString? && b.BasicString?
    ensures Substitute(Add(a, b), row) == Ok(Substitute(a, row).value + Substitute(b, row).value)
  {
  }
}

=== FILE: fields.dfy ===
/**
 * Python's `str.split(sep)` with an explicit, non-empty separator, and its
 * inverse `sep.join(parts)`. The separator is found scanning left to right,
 * occurrences do not overlap, and consecutive separators give empty fields.
 */
module Fields {

  /** `d` occurs in `s` starting at position `k`. */
  predicate OccursAt(s: string, d: string, k: int) {
    0 <= k && k + |d| <= |s| && s[k..k + |d|] == d
  }

  predicate Contains(s: string, d: string) {
    exists k | 0 <= k <= |s| :: OccursAt(s, d, k)
  }

  /** The first occurrence of `d` in `s` at or after `k`, or `|s|` when there is none. */
  function Find(s: string, d: string, k: nat): (j: nat)
    requires |d| > 0 && k <= |s|
    ensures k <= j <= |s|
    ensures j < |s| ==> OccursAt(s, d, j)
    ensures forall m :: k <= m < j ==> !OccursAt(s, d, m)
    decreases |s| - k
  {
    if k + |d| > |s| then |s|
    else if s[k..k + |d|] == d then k
    else Find(s, d, k + 1)
  }

  /** `s.split(d)` */
  function Split(s: string, d: string): (parts: seq<string>)
    requires |d| > 0
    ensures |parts| >= 1
    decreases |s|
  {
    var j := Find(s, d, 0);
    if j == |s| then [s] else [s[..j]] + Split(s[j + |d|..], d)
  }

  /** `d.join(parts)` */
  function Join(parts: seq<string>, d: string): (r: string)
    ensures |parts| > 0 ==> |parts[0]| <= |r| && r[..|parts[0]|] == parts[0]
  {
    if |parts| == 0 then []
    else if |parts| == 1 then parts[0]
    else parts[0] + d + Join(parts[1..], d)
  }

  /** `s.count(d)`: the occurrences of `d` found scanning left to right, each search resuming after the last match. */
  function Count(s: string, d: string): nat
    requires |d| > 0
    decreases |s|
  {
    var j := Find(s, d, 0);
    if j == |s| then 0 else 1 + Count(s[j + |d|..], d)
  }

  /** Joining the fields with the separator gives back the split string. */
  lemma {:induction false} JoinSplit(s: string, d: string)
    requires |d| > 0
    ensures Join(Split(s, d), d) == s
    decreases |s|
  {
    var j := Find(s, d, 0);
    if j < |s| {
      var rest := s[j + |d|..];
      var parts := Split(rest, d);
      JoinSplit(rest, d);
      assert Split(s, d) == [s[..j]] + parts;
      assert ([s[..j]] + parts)[1..] == parts;
      assert Join(Split(s, d), d) == s[..j] + d + Join(parts, d);
      assert s[j..j + |d|] == d;
      assert s == s[..j] + s[j..j + |d|] + rest;
    } else {
      assert Split(s, d) == [s];
    }
  }

  /** No field contains the separator. */
  lemma {:induction false} SplitFieldsFree(s: string, d: string)
    requires |d| > 0
    ensures forall k :: 0 <= k < |Split(s, d)| ==> !Contains(Split(s, d)[k], d)
    decreases |s|
  {
    var j := Find(s, d, 0);
    var head := s[..j];
    forall m | OccursAt(head, d, m)
      ensures false
    {
      assert head[m..m + |d|] == s[m..m + |d|];
      assert OccursAt(s, d, m);
    }
    if j < |s| {
      SplitFieldsFree(s[j + |d|..], d);
      assert s[..|s|] == s;
    } else {
      assert s == head;
    }
  }

  /** A string without the separator is one field: itself. */
  lemma NoSeparatorOneField(s: string, d: string)
    requires |d| > 0 && !Contains(s, d)
    ensures Split(s, d) == [s]
  {
  }

  /** `split` gives exactly one field more than `count` finds separators. */
  lemma {:induction false} SplitCount(s: string, d: string)
    requires |d| > 0
    ensures |Split(s, d)| == Count(s, d) + 1
    decreases |s|
  {
    var j := Find(s, d, 0);
    if j < |s| {
      SplitCount(s[j + |d|..], d);
    }
  }

  /** `count` finds nothing exactly when the separator does not occur. */
  lemma CountZeroIffAbsent(s: string, d: string)
    requires |d| > 0
    ensures Count(s, d) == 0 <==> !Contains(s, d)
  {
    var j := Find(s, d, 0);
    if j < |s| {
      assert OccursAt(s, d, j);
    }
  }

  /** Occurrences that overlap are counted once: `"aaa".count("aa")` is 1 and `"aaa".split("aa")` has two fields. */
  lemma ExampleOverlap()
    ensures Count("aaa", "aa") == 1
    ensures Split("aaa", "aa") == ["", "a"]
  {
    assert "aaa"[..2] == "aa";
    assert "aaa"[2..] == "a";
    assert Find("a", "aa", 0) == 1;
  }
}

=== FILE: parser.dfy ===
/**
 * `parse_fmt` of src/yyargs/yyargs.py: one left-to-right pass over a
 * command-line token that produces its `Argument` nodes. `ParseFrom` states
 * what one pass does from a position on; `ParseFmt` is the loop over the
 * `Stream` cursor, proved to compute it.
 */
module Parser {
  import opened Results
  import opened Text
  import opened Template
  import opened Cursor

  /** What `parse_fmt` raises. */
  datatype ParseError =
    | MissingClose(at: int)   // ValueError 'Expected "}"', at the cursor position
    | StrayClose(at: int)     // ValueError 'Unexpected "}"', at the cursor position
    | EmptyPlaceholder        // ValueError from int('') on "{}"
    | TrailingSpace           // AttributeError from None.isspace() in skip_spaces

  /** The text a literal run collected and the position where it stopped. */
  datatype Run = Run(text: string, end: nat)

  function Prepend(pre: seq<Argument>, r: Result<seq<Argument>, ParseError>): Result<seq<Argument>, ParseError>
  {
    match r
    case Ok(nodes) => Ok(pre + nodes)
    case Err(e) => Err(e)
  }

  function PrependText(pre: string, r: Result<Run, ParseError>): Result<Run, ParseError>
  {
    match r
    case Ok(run) => Ok(Run(pre + run.text, run.end))
    case Err(e) => Err(e)
  }

  /** A `{` that is not doubled: the start of a placeholder. It is never whitespace, so `skip_spaces` stops before it. */
  predicate OpensPlaceholder(s: string, p: nat)
    requires p < |s|
    ensures OpensPlaceholder(s, p) ==> s[p] == '{' && !IsSpace(s[p])
  {
    s[p] == '{' && !(p + 1 < |s| && s[p + 1] == '{')
  }

  predicate NonEmptyLiterals(nodes: seq<Argument>) {
    forall k :: 0 <= k < |nodes| && nodes[k].Literal? ==> nodes[k].text != []
  }

  /**
   * The literal-run branch from position `q`: ordinary characters are kept
   * as they are (whitespace included), `{{` and `}}` add one brace, a lone
   * `{` ends the run and a lone `}` raises.
   */
  function LiteralRun(s: string, q: nat): (r: Result<Run, ParseError>)
    requires q <= |s|
    ensures r.Ok? ==> q <= r.value.end <= |s| && |r.value.text| <= r.value.end - q
    decreases |s| - q
  {
    if q == |s| then Ok(Run([], q))
    else if s[q] == '{' then
      if q + 1 < |s| && s[q + 1] == '{' then PrependText("{", LiteralRun(s, q + 2)) else Ok(Run([], q))
    else if s[q] == '}' then
      if q + 1 < |s| && s[q + 1] == '}' then PrependText("}", LiteralRun(s, q + 2)) else Err(StrayClose(q))
    else PrependText([s[q]], LiteralRun(s, q + 1))
  }

  /**
   * A literal run stops at the end of the text or at a lone `{`; it
   * collects one character per character or doubled brace it consumes, so
   * it is empty only when it consumed nothing; it fails only at a lone `}`.
   */
  lemma {:induction false} LiteralRunShape(s: string, q: nat)
    requires q <= |s|
    ensures var r := LiteralRun(s, q);
            (r.Ok? ==> q <= r.value.end <= |s| && |r.value.text| <= r.value.end - q) &&
            (r.Ok? ==> (r.value.text == [] <==> r.value.end == q)) &&
            (r.Ok? ==> r.value.end == |s| || OpensPlaceholder(s, r.value.end)) &&
            (r.Err? ==> r.error.StrayClose? && q <= r.error.at < |s| && s[r.error.at] == '}')
    decreases |s| - q
  {
    if q < |s| {
      if s[q] == '{' || s[q] == '}' {
        if q + 1 < |s| && s[q + 1] == s[q] {
          LiteralRunShape(s, q + 2);
        }
      } else {
        LiteralRunShape(s, q + 1);
      }
    }
  }

  /** One node and the position where the next iteration starts. */
  datatype Step = Step(node: Argument, next: nat)

  /**
   * The placeholder branch at a `{` that opens a placeholder: a run of
   * digits and a `}` give `Positional(int(digits))`; anything else raises.
   */
  function PlaceholderAt(s: string, p: nat): (r: Result<Step, ParseError>)
    requires p < |s|
    ensures r.Ok? ==> p < r.value.next <= |s| && r.value.node.Positional?
    ensures r.Err? && r.error.MissingClose? ==> p < r.error.at <= |s|
  {
    if p + 1 == |s| then Err(MissingClose(p + 1))
    else
      var q := p + 1 + DigitRun(s, p + 1);
      if q == |s| || s[q] != '}' then Err(MissingClose(q))
      else if q == p + 1 then Err(EmptyPlaceholder)
      else Ok(Step(Positional(Decimal(s[p + 1..q])), q + 1))
  }

  /**
   * One iteration of `parse_fmt`'s loop at position `p`: the node it
   * appends and where it leaves the cursor, or what it raises. Every
   * iteration consumes at least one character and appends no empty literal.
   */
  function NodeAt(s: string, p: nat): (r: Result<Step, ParseError>)
    requires p < |s|
    ensures r.Ok? ==> p < r.value.next <= |s|
    ensures r.Ok? && r.value.node.Literal? ==> r.value.node.text != []
    ensures r.Err? && (r.error.MissingClose? || r.error.StrayClose?) ==> p <= r.error.at <= |s|
  {
    var n := SpaceRun(s, p);
    if n > 0 then
      if p + n == |s| then Err(TrailingSpace) else Ok(Step(Literal(Spaces(n)), p + n))
    else if OpensPlaceholder(s, p) then PlaceholderAt(s, p)
    else if s[p] == '}' then
      if p + 1 < |s| && s[p + 1] == '}' then Ok(Step(Literal("}"), p + 2)) else Err(StrayClose(p + 1))
    else
      LiteralRunShape(s, p);
      match LiteralRun(s, p)
      case Err(e) => Err(e)
      case Ok(run) => Ok(Step(Literal(run.text), run.end))
  }

  /**
   * The nodes `parse_fmt` appends from position `p` to the end of `s`, or
   * what it raises first. There are at most as many nodes as characters
   * left, and no literal is empty.
   */
  function ParseFrom(s: string, p: nat): (r: Result<seq<Argument>, ParseError>)
    requires p <= |s|
    ensures r.Ok? ==> |r.value| <= |s| - p
    ensures r.Ok? ==> NonEmptyLiterals(r.value)
    ensures r.Err? && (r.error.MissingClose? || r.error.StrayClose?) ==> p <= r.error.at <= |s|
    decreases |s| - p
  {
    if p == |s| then Ok([])
    else
      match NodeAt(s, p)
      case Err(e) => Err(e)
      case Ok(step) => Prepend([step.node], ParseFrom(s, step.next))
  }

  /** `parse_fmt(s)` */
  function Parse(s: string): (r: Result<seq<Argument>, ParseError>)
    ensures r.Ok? ==> |r.value| <= |s| && NonEmptyLiterals(r.value)
  {
    ParseFrom(s, 0)
  }

  lemma PrependSnoc(pre: seq<Argument>, a: Argument, r: Result<seq<Argument>, ParseError>)
    ensures Prepend(pre, Prepend([a], r)) == Prepend(pre + [a], r)
  {
    if r.Ok? {
      assert pre + ([a] + r.value) == (pre + [a]) + r.value;
    }
  }

  lemma PrependTextSnoc(pre: string, c: char, r: Result<Run, ParseError>)
    ensures PrependText(pre, PrependText([c], r)) == PrependText(pre + [c], r)
  {
    if r.Ok? {
      assert pre + ([c] + r.value.text) == (pre + [c]) + r.value.text;
    }
  }

  /** One iteration's outcome as the source sees it: the node appended and the new cursor position. */
  function Outcome(r: Result<Argument, ParseError>, index: int): Result<Step, ParseError>
    requires index >= 0
  {
    match r
    case Ok(node) => Ok(Step(node, index))
    case Err(e) => Err(e)
  }

  /** One iteration of `parse_fmt`'s loop at the cursor. */
  method ParseNode(st: Stream) returns (r: Result<Argument, ParseError>)
    requires 0 <= st.index < |st.text|
    modifies st
    ensures 0 <= st.index <= |st.text|
    ensures NodeAt(st.text, old(st.index)) == Outcome(r, st.index)
  {
    var skipped := st.SkipSpaces();
    if skipped.None? {
      return Err(TrailingSpace);
    }
    if skipped.value > 0 {
      return Ok(Literal(Spaces(skipped.value)));
    } else if st.Look() == Some('{') && st.Look(1) != Some('{') {
      r := ReadPlaceholder(st);
    } else if st.Look() == Some('}') {
      st.Consume();
      if st.Look() == Some('}') {
        st.Consume();
        return Ok(Literal("}"));
      } else {
        return Err(StrayClose(st.Curr()));
      }
    } else {
      var curr := ReadLiteralRun(st);
      if curr.Err? {
        return Err(curr.error);
      }
      return Ok(Literal(curr.value));
    }
  }

  /** The placeholder branch of `parse_fmt`: `{`, a run of digits, `}`. */
  method ReadPlaceholder(st: Stream) returns (r: Result<Argument, ParseError>)
    requires 0 <= st.index < |st.text|
    modifies st
    ensures 0 <= st.index <= |st.text|
    ensures PlaceholderAt(st.text, old(st.index)) == Outcome(r, st.index)
  {
    st.Consume();
    if st.IsAtEnd() {
      return Err(MissingClose(st.Curr()));
    }
    // The source's `{{` test at this point can never succeed: the caller's
    // guard has just seen that the next character is not `{`.
    var pos := ReadDigits(st);
    if st.Look() != Some('}') {
      return Err(MissingClose(st.Curr()));
    }
    st.Consume();
    if pos == [] {
      return Err(EmptyPlaceholder);
    }
    return Ok(Positional(Decimal(pos)));
  }

  /** The digit loop of the placeholder branch: reads the run of digits under the cursor. */
  method ReadDigits(st: Stream) returns (pos: string)
    requires 0 <= st.index <= |st.text|
    modifies st
    ensures st.index == old(st.index) + DigitRun(st.text, old(st.index))
    ensures pos == st.text[old(st.index)..st.index] && AllDigits(pos)
  {
    ghost var s, p := st.text, st.index;
    pos := [];
    while !st.IsAtEnd() && IsDigit(st.Look().value)
      invariant st.text == s && p <= st.index <= |s|
      invariant pos == s[p..st.index]
      invariant DigitRun(s, p) == |pos| + DigitRun(s, st.index)
      decreases |s| - st.index
    {
      var c := st.Look().value;
      DigitStep(s, p, st.index, pos);
      pos := pos + [c];
      st.Consume();
    }
  }

  /** Reading one more digit of the run extends what was read by that digit. */
  lemma DigitStep(s: string, p: nat, i: nat, pos: string)
    requires p <= i < |s| && IsDigit(s[i]) && pos == s[p..i]
    requires DigitRun(s, p) == |pos| + DigitRun(s, i)
    ensures pos + [s[i]] == s[p..i + 1]
    ensures DigitRun(s, p) == |pos| + 1 + DigitRun(s, i + 1)
  {
  }

  /**
   * One step of a literal run: a doubled brace adds one brace, any other
   * character adds itself, and what is still to be read shrinks accordingly.
   */
  lemma LiteralRunStep(s: string, p: nat, q: nat, curr: string, width: nat)
    requires p <= q < |s| && (width == 1 || width == 2) && q + width <= |s|
    requires width == 2 <==> (s[q] == '{' || s[q] == '}')
    requires width == 2 ==> s[q + 1] == s[q]
    requires LiteralRun(s, p) == PrependText(curr, LiteralRun(s, q))
    ensures LiteralRun(s, p) == PrependText(curr + [s[q]], LiteralRun(s, q + width))
  {
    assert LiteralRun(s, q) == PrependText([s[q]], LiteralRun(s, q + width));
    PrependTextSnoc(curr, s[q], LiteralRun(s, q + width));
  }

  /** The literal-run branch of `parse_fmt`: collects characters up to a lone `{` or the end. */
  method ReadLiteralRun(st: Stream) returns (r: Result<string, ParseError>)
    requires 0 <= st.index <= |st.text|
    modifies st
    ensures old(st.index) <= st.index <= |st.text|
    ensures r.Err? ==> LiteralRun(st.text, old(st.index)) == Err(r.error)
    ensures r.Ok? ==> LiteralRun(st.text, old(st.index)) == Ok(Run(r.value, st.index))
  {
    ghost var s, p := st.text, st.index;
    var curr: string := [];
    assert PrependText([], LiteralRun(s, p)) == LiteralRun(s, p) by {
      if LiteralRun(s, p).Ok? {
        assert [] + LiteralRun(s, p).value.text == LiteralRun(s, p).value.text;
      }
    }
    while !st.IsAtEnd()
      invariant st.text == s && p <= st.index <= |s|
      invariant LiteralRun(s, p) == PrependText(curr, LiteralRun(s, st.index))
      decreases |s| - st.index
    {
      var c := st.Look().value;
      var width := 1;
      if c == '{' {
        if st.Look(1) == Some('{') {
          width := 2;
        } else {
          break;
        }
      } else if c == '}' {
        if st.Look(1) == Some('}') {
          width := 2;
        } else {
          return Err(StrayClose(st.Curr()));
        }
      }
      LiteralRunStep(s, p, st.index, curr, width);
      curr := curr + [c];
      st.Consume(width);
    }
    assert curr + [] == curr;
    return Ok(curr);
  }

  /** `parse_fmt`, driving a `Stream` over `s`. */
  method ParseFmt(s: string) returns (r: Result<seq<Argument>, ParseError>)
    ensures r == Parse(s)
  {
    var args: seq<Argument> := [];
    var st := new Stream(s);
    assert Prepend([], ParseFrom(s, 0)) == ParseFrom(s, 0) by {
      if ParseFrom(s, 0).Ok? {
        assert [] + ParseFrom(s, 0).value == ParseFrom(s, 0).value;
      }
    }
    while !st.IsAtEnd()
      invariant st.text == s && 0 <= st.index <= |s|
      invariant Parse(s) == Prepend(args, ParseFrom(s, st.index))
      decreases |s| - st.index
    {
      var node := ParseNode(st);
      if node.Err? {
        return Err(node.error);
      }
      PrependSnoc(args, node.value, ParseFrom(s, st.index));
      args := args + [node.value];
    }
    assert args + [] == args;
    return Ok(args);
  }
}

=== FILE: parser_properties.dfy ===
/**
 * What `parse_fmt` promises: the grammar on examples, its error cases, the
 * meaning of a placeholder, and that escaping braces round-trips through
 * parsing and rendering.
 */
module ParserProperties {
  import opened Results
  import opened Text
  import opened Template
  import opened Parser

  /** Placeholders and a whitespace run between them. */
  lemma ExamplePlaceholders()
    ensures Parse("{0} {1}") == Ok([Positional(0), Literal(" "), Positional(1)])
  {
    ExamplePlaceholdersTail();
    ExamplePlaceholdersHead("{0} {1}");
    assert [Positional(0)] + [Literal(" "), Positional(1)] == [Positional(0), Literal(" "), Positional(1)];
  }

  /** The first placeholder of the example above, then whatever follows it. */
  lemma ExamplePlaceholdersHead(s: string)
    requires s == "{0} {1}"
    ensures Parse(s) == Prepend([Positional(0)], ParseFrom(s, 3))
  {
    assert s[0..3] == "{" + "0" + "}";
    PlaceholderParses(s, 0, "0");
    assert Decimal("0") == 0;
  }

  /** The part of the example above that follows its first placeholder. */
  lemma ExamplePlaceholdersTail()
    ensures ParseFrom("{0} {1}", 3) == Ok([Literal(" "), Positional(1)])
  {
    var s := "{0} {1}";
    assert s[4..7] == "{" + "1" + "}";
    PlaceholderParses(s, 4, "1");
    assert Decimal("1") == 1;
    assert [Positional(1)] + [] == [Positional(1)];
    assert ParseFrom(s, 4) == Ok([Positional(1)]);
    assert SpaceRun(s, 4) == 0;
    assert SpaceRun(s, 3) == 1;
    assert Spaces(1)[0] == ' ' && Spaces(1) == " ";
    assert NodeAt(s, 3) == Ok(Step(Literal(" "), 4));
    assert [Literal(" ")] + [Positional(1)] == [Literal(" "), Positional(1)];
  }

  /** A word without braces or whitespace is one literal. */
  lemma ExampleWord()
    ensures Parse("echo") == Ok([Literal("echo")])
  {
    var s := "echo";
    assert LiteralRun(s, 4) == Ok(Run([], 4));
    assert [s[3]] + [] == "o";
    assert LiteralRun(s, 3) == Ok(Run("o", 4));
    assert [s[2]] + "o" == "ho";
    assert LiteralRun(s, 2) == Ok(Run("ho", 4));
    assert [s[1]] + "ho" == "cho";
    assert LiteralRun(s, 1) == Ok(Run("cho", 4));
    assert [s[0]] + "cho" == "echo";
    assert LiteralRun(s, 0) == Ok(Run("echo", 4));
    assert SpaceRun(s, 0) == 0;
    assert NodeAt(s, 0) == Ok(Step(Literal("echo"), 4));
    assert [Literal("echo")] + [] == [Literal("echo")];
  }

  /** Two placeholders joined by a literal run that stops at the second `{`. */
  lemma ExampleTwoPlaceholders()
    ensures Parse("{0}-{1}") == Ok([Positional(0), Literal("-"), Positional(1)])
  {
    ExampleTwoPlaceholdersTail();
    ExampleTwoPlaceholdersHead("{0}-{1}");
    assert [Positional(0)] + [Literal("-"), Positional(1)] == [Positional(0), Literal("-"), Positional(1)];
  }

  lemma ExampleTwoPlaceholdersHead(s: string)
    requires s == "{0}-{1}"
    ensures Parse(s) == Prepend([Positional(0)], ParseFrom(s, 3))
  {
    assert s[0..3] == "{" + "0" + "}";
    PlaceholderParses(s, 0, "0");
    assert Decimal("0") == 0;
  }

  lemma ExampleTwoPlaceholdersTail()
    ensures ParseFrom("{0}-{1}", 3) == Ok([Literal("-"), Positional(1)])
  {
    var s := "{0}-{1}";
    assert s[4..7] == "{" + "1" + "}";
    PlaceholderParses(s, 4, "1");
    assert Decimal("1") == 1;
    assert [Positional(1)] + [] == [Positional(1)];
    assert ParseFrom(s, 4) == Ok([Positional(1)]);
    assert LiteralRun(s, 4) == Ok(Run([], 4));
    assert [s[3]] + [] == "-";
    assert LiteralRun(s, 3) == Ok(Run("-", 4));
    assert SpaceRun(s, 3) == 0;
    assert NodeAt(s, 3) == Ok(Step(Literal("-"), 4));
    assert [Literal("-")] + [Positional(1)] == [Literal("-"), Positional(1)];
  }

  /** Leading zeros in a placeholder are read by `int` as usual. */
  lemma ExampleLeadingZeros()
    ensures Parse("{007}") == Ok([Positional(7)])
  {
    var z := "{007}";
    assert DigitRun(z, 4) == 0;
    assert z[1..4] == "007";
    assert Decimal("0") == 0 && Decimal("00") == 0 && Decimal("007") == 7;
    assert NodeAt(z, 0) == Ok(Step(Positional(7), 5));
    assert [Positional(7)] + [] == [Positional(7)];
  }

  /** Doubled braces met inside a literal run are absorbed into that run. */
  lemma ExampleDoubledBraces()
    ensures Parse("{{}}") == Ok([Literal("{}")])
  {
    var s := "{{}}";
    assert LiteralRun(s, 4) == Ok(Run([], 4));
    assert "}" + [] == "}";
    assert LiteralRun(s, 2) == Ok(Run("}", 4));
    assert "{" + "}" == "{}";
    assert LiteralRun(s, 0) == Ok(Run("{}", 4));
    assert NodeAt(s, 0) == Ok(Step(Literal("{}"), 4));
    assert [Literal("{}")] + [] == [Literal("{}")];
  }

  /** A doubled brace inside a run of other characters is one brace of that run. */
  lemma ExampleDoubledBraceInRun()
    ensures Parse("a{{b") == Ok([Literal("a{b")])
  {
    var t := "a{{b";
    assert LiteralRun(t, 4) == Ok(Run([], 4));
    assert [t[3]] + [] == "b";
    assert LiteralRun(t, 3) == Ok(Run("b", 4));
    assert "{" + "b" == "{b";
    assert LiteralRun(t, 1) == Ok(Run("{b", 4));
    assert [t[0]] + "{b" == "a{b";
    assert LiteralRun(t, 0) == Ok(Run("a{b", 4));
    assert NodeAt(t, 0) == Ok(Step(Literal("a{b"), 4));
    assert [Literal("a{b")] + [] == [Literal("a{b")];
  }

  /** A doubled `}` at the start of an iteration is a literal of its own. */
  lemma ExampleDoubledCloseFirst()
    ensures Parse("}}{{") == Ok([Literal("}"), Literal("{")])
  {
    var u := "}}{{";
    assert NodeAt(u, 0) == Ok(Step(Literal("}"), 2));
    assert LiteralRun(u, 4) == Ok(Run([], 4));
    assert "{" + [] == "{";
    assert LiteralRun(u, 2) == Ok(Run("{", 4));
    assert NodeAt(u, 2) == Ok(Step(Literal("{"), 4));
    assert [Literal("{")] + [] == [Literal("{")];
    assert ParseFrom(u, 2) == Ok([Literal("{")]);
    assert [Literal("}")] + [Literal("{")] == [Literal("}"), Literal("{")];
  }

  /** A whitespace run at the start of an iteration becomes that many spaces; inside a literal run it is kept. */
  lemma ExampleWhitespace()
    ensures Parse("\tx") == Ok([Literal(" "), Literal("x")])
  {
    var s := "\tx";
    assert SpaceRun(s, 1) == 0;
    assert SpaceRun(s, 0) == 1;
    assert Spaces(1)[0] == ' ' && Spaces(1) == " ";
    assert NodeAt(s, 0) == Ok(Step(Literal(" "), 1));
    assert LiteralRun(s, 2) == Ok(Run([], 2));
    assert [s[1]] + [] == "x";
    assert LiteralRun(s, 1) == Ok(Run("x", 2));
    assert NodeAt(s, 1) == Ok(Step(Literal("x"), 2));
    assert [Literal("x")] + [] == [Literal("x")];
    assert ParseFrom(s, 1) == Ok([Literal("x")]);
    assert [Literal(" ")] + [Literal("x")] == [Literal(" "), Literal("x")];
  }

  /** Whitespace met inside a literal run is kept as it is. */
  lemma ExampleWhitespaceInRun()
    ensures Parse("a\tb") == Ok([Literal("a\tb")])
  {
    var t := "a\tb";
    assert LiteralRun(t, 3) == Ok(Run([], 3));
    assert [t[2]] + [] == "b";
    assert LiteralRun(t, 2) == Ok(Run("b", 3));
    assert [t[1]] + "b" == "\tb";
    assert LiteralRun(t, 1) == Ok(Run("\tb", 3));
    assert [t[0]] + "\tb" == "a\tb";
    assert LiteralRun(t, 0) == Ok(Run("a\tb", 3));
    assert NodeAt(t, 0) == Ok(Step(Literal("a\tb"), 3));
    assert [Literal("a\tb")] + [] == [Literal("a\tb")];
  }

  /** A `{` left open at the end, or closed without digits, raises. */
  lemma ExampleOpenBraceErrors()
    ensures Parse("{") == Err(MissingClose(1))
    ensures Parse("{}") == Err(EmptyPlaceholder)
    ensures Parse("{a}") == Err(MissingClose(1))
    ensures Parse("{12") == Err(MissingClose(3))
  {
    assert NodeAt("{", 0) == Err(MissingClose(1));
    assert DigitRun("{}", 1) == 0;
    assert NodeAt("{}", 0) == Err(EmptyPlaceholder);
    assert DigitRun("{a}", 1) == 0;
    assert NodeAt("{a}", 0) == Err(MissingClose(1));
    assert DigitRun("{12", 3) == 0;
    assert DigitRun("{12", 1) == 2;
    assert NodeAt("{12", 0) == Err(MissingClose(3));
  }

  /** A lone `}` raises, and so does a whitespace run that reaches the end at the start of an iteration. */
  lemma ExampleCloseBraceAndSpaceErrors()
    ensures Parse("}") == Err(StrayClose(1))
    ensures Parse("a}b") == Err(StrayClose(1))
    ensures Parse("{0} ") == Err(TrailingSpace)
  {
    assert NodeAt("}", 0) == Err(StrayClose(1));
    assert LiteralRun("a}b", 1) == Err(StrayClose(1));
    assert LiteralRun("a}b", 0) == Err(StrayClose(1));
    assert NodeAt("a}b", 0) == Err(StrayClose(1));
    var s := "{0} ";
    assert DigitRun(s, 2) == 0;
    assert NodeAt(s, 0) == Ok(Step(Positional(0), 3));
    assert SpaceRun(s, 3) == 1;
    assert NodeAt(s, 3) == Err(TrailingSpace);
  }

  lemma {:induction false} SpaceRunExact(s: string, p: nat, n: nat)
    requires p + n <= |s|
    requires forall k :: p <= k < p + n ==> IsSpace(s[k])
    requires p + n == |s| || !IsSpace(s[p + n])
    ensures SpaceRun(s, p) == n
    decreases n
  {
    if n > 0 {
      SpaceRunExact(s, p + 1, n - 1);
    }
  }

  lemma {:induction false} DigitRunExact(s: string, p: nat, n: nat)
    requires p + n <= |s|
    requires AllDigits(s[p..p + n])
    requires p + n == |s| || !IsDigit(s[p + n])
    ensures DigitRun(s, p) == n
    decreases n
  {
    if n > 0 {
      assert IsDigit(s[p..p + n][0]);
      assert s[p + 1..p + n] == s[p..p + n][1..];
      DigitRunExact(s, p + 1, n - 1);
    }
  }

  /**
   * A placeholder `{N}`, with `N` a non-empty run of digits, parses to
   * `Positional(int(N))` and parsing goes on after its `}`.
   */
  lemma PlaceholderParses(s: string, p: nat, ds: string)
    requires ds != [] && AllDigits(ds)
    requires p + |ds| + 2 <= |s| && s[p..p + |ds| + 2] == "{" + ds + "}"
    ensures ParseFrom(s, p) == Prepend([Positional(Decimal(ds))], ParseFrom(s, p + |ds| + 2))
  {
    PlaceholderSlices(s, p, ds);
    PlaceholderStep(s, p, ds);
  }

  lemma PlaceholderStep(s: string, p: nat, ds: string)
    requires ds != [] && AllDigits(ds) && p + |ds| + 2 <= |s|
    requires s[p] == '{' && IsDigit(s[p + 1]) && s[p + |ds| + 1] == '}'
    requires s[p + 1..p + 1 + |ds|] == ds
    ensures ParseFrom(s, p) == Prepend([Positional(Decimal(ds))], ParseFrom(s, p + |ds| + 2))
  {
    var node, next := Positional(Decimal(ds)), p + |ds| + 2;
    PlaceholderNode(s, p, ds);
    ParseFromStep(s, p, Step(node, next));
  }

  lemma PlaceholderNode(s: string, p: nat, ds: string)
    requires ds != [] && AllDigits(ds) && p + |ds| + 2 <= |s|
    requires s[p] == '{' && IsDigit(s[p + 1]) && s[p + |ds| + 1] == '}'
    requires s[p + 1..p + 1 + |ds|] == ds
    ensures NodeAt(s, p) == Ok(Step(Positional(Decimal(ds)), p + |ds| + 2))
  {
    DigitsBeforeClose(s, p, ds);
    PlaceholderDigits(s, p, |ds|);
  }

  lemma DigitsBeforeClose(s: string, p: nat, ds: string)
    requires ds != [] && AllDigits(ds) && p + |ds| + 2 <= |s|
    requires s[p + |ds| + 1] == '}'
    requires s[p + 1..p + 1 + |ds|] == ds
    ensures DigitRun(s, p + 1) == |ds|
  {
    DigitRunExact(s, p + 1, |ds|);
  }

  lemma PlaceholderDigits(s: string, p: nat, n: nat)
    requires 0 < n && p + n + 2 <= |s| && DigitRun(s, p + 1) == n && s[p + n + 1] == '}'
    requires s[p] == '{' && IsDigit(s[p + 1])
    ensures NodeAt(s, p) == Ok(Step(Positional(Decimal(s[p + 1..p + 1 + n])), p + n + 2))
  {
    NodeAtOpenBrace(s, p);
  }

  /** At a `{` not followed by another `{`, the iteration reads a placeholder. */
  lemma NodeAtOpenBrace(s: string, p: nat)
    requires p + 1 < |s| && s[p] == '{' && s[p + 1] != '{'
    ensures NodeAt(s, p) == PlaceholderAt(s, p)
  {
    assert !IsSpace(s[p]);
    assert SpaceRun(s, p) == 0;
  }

  lemma PlaceholderSlices(s: string, p: nat, ds: string)
    requires ds != [] && AllDigits(ds)
    requires p + |ds| + 2 <= |s| && s[p..p + |ds| + 2] == "{" + ds + "}"
    ensures s[p] == '{' && IsDigit(s[p + 1]) && s[p + |ds| + 1] == '}'
    ensures s[p + 1..p + 1 + |ds|] == ds
  {
    var t := s[p..p + |ds| + 2];
    assert s[p] == t[0] == '{';
    assert s[p + 1] == t[1] == ds[0];
    assert s[p + |ds| + 1] == t[|ds| + 1] == '}';
    forall k | 0 <= k < |ds|
      ensures s[p + 1..p + 1 + |ds|][k] == ds[k]
    {
      assert s[p + 1 + k] == t[1 + k];
    }
  }

  /** The token that `parse_fmt` reads back as the text `x`: every brace doubled. */
  function Escape(x: string): (e: string)
    ensures |e| >= |x|
  {
    if x == [] then []
    else (if x[0] == '{' then "{{" else if x[0] == '}' then "}}" else [x[0]]) + Escape(x[1..])
  }

  /** Text that survives the round trip: its only whitespace is ' ', and it does not end in whitespace. */
  predicate Plain(x: string) {
    (forall k :: 0 <= k < |x| && IsSpace(x[k]) ==> x[k] == ' ') &&
    (x == [] || !IsSpace(x[|x| - 1]))
  }

  lemma {:induction false} EscapeAppend(a: string, b: string)
    ensures Escape(a + b) == Escape(a) + Escape(b)
    decreases |a|
  {
    if a == [] {
      assert a + b == b;
    } else {
      assert (a + b)[0] == a[0];
      assert (a + b)[1..] == a[1..] + b;
      EscapeAppend(a[1..], b);
    }
  }

  lemma {:induction false} EscapeBlank(w: string)
    requires AllSpace(w)
    ensures Escape(w) == w
    decreases |w|
  {
    if w != [] {
      EscapeBlank(w[1..]);
      assert w == [w[0]] + w[1..];
    }
  }

  lemma ParseFromStep(s: string, p: nat, step: Step)
    requires p < |s| && NodeAt(s, p) == Ok(step)
    ensures ParseFrom(s, p) == Prepend([step.node], ParseFrom(s, step.next))
  {
  }

  /** A literal node followed by a suffix that renders to `rest` renders to the literal then `rest`. */
  lemma LiteralThenRest(s: string, p: nat, lead: string, next: nat, rest: string, row: seq<string>)
    requires p < |s| && NodeAt(s, p) == Ok(Step(Literal(lead), next))
    requires ParseFrom(s, next).Ok? && Render(ParseFrom(s, next).value, row) == Ok(rest)
    ensures ParseFrom(s, p).Ok? && Render(ParseFrom(s, p).value, row) == Ok(lead + rest)
  {
    var tail := ParseFrom(s, next);
    ParseFromStep(s, p, Step(Literal(lead), next));
    RenderLiteralCons(lead, tail, row);
  }

  lemma RenderLiteralCons(a: string, r: Result<seq<Argument>, ParseError>, row: seq<string>)
    requires r.Ok?
    ensures Prepend([Literal(a)], r).Ok?
    ensures Render(Prepend([Literal(a)], r).value, row) == Concat(Ok(a), Render(r.value, row))
  {
    assert ([Literal(a)] + r.value)[1..] == r.value;
  }

  /** From a position where the escaped form of `y` starts, the literal run reads all of `y`. */
  lemma {:induction false} LiteralRunEscaped(s: string, p: nat, y: string)
    requires p <= |s| && s[p..] == Escape(y)
    ensures LiteralRun(s, p) == Ok(Run(y, |s|))
    decreases |y|
  {
    if y == [] {
      assert |s[p..]| == 0;
    } else {
      var e := if y[0] == '{' then "{{" else if y[0] == '}' then "}}" else [y[0]];
      assert s[p..] == e + Escape(y[1..]);
      assert s[p + |e|..] == Escape(y[1..]);
      assert s[p] == e[0];
      assert |e| == 2 ==> s[p + 1] == e[1];
      LiteralRunEscaped(s, p + |e|, y[1..]);
      assert [y[0]] + y[1..] == y;
    }
  }

  lemma {:induction false} ParseEscaped(s: string, p: nat, y: string, row: seq<string>)
    requires p <= |s| && s[p..] == Escape(y) && Plain(y)
    ensures ParseFrom(s, p).Ok? && Render(ParseFrom(s, p).value, row) == Ok(y)
    decreases |y|, 1
  {
    if y == [] {
      assert |s[p..]| == 0;
    } else if IsSpace(y[0]) {
      ParseEscapedSpaces(s, p, y, row);
    } else if y[0] == '}' {
      ParseEscapedClose(s, p, y, row);
    } else {
      ParseEscapedRun(s, p, y, row);
    }
  }

  /** Leading spaces of `y` come back as one literal of the same spaces. */
  lemma {:induction false} ParseEscapedSpaces(s: string, p: nat, y: string, row: seq<string>)
    requires p <= |s| && s[p..] == Escape(y) && Plain(y)
    requires y != [] && IsSpace(y[0])
    ensures ParseFrom(s, p).Ok? && Render(ParseFrom(s, p).value, row) == Ok(y)
    decreases |y|, 0
  {
    var n := LeadingSpacesNode(s, p, y);
    ParseEscaped(s, p + n, y[n..], row);
    LiteralThenRest(s, p, y[..n], p + n, y[n..], row);
    TakeDrop(y, n);
  }

  /** The node read where the escaped form of `y` starts with spaces is those spaces. */
  lemma LeadingSpacesNode(s: string, p: nat, y: string) returns (n: nat)
    requires p <= |s| && s[p..] == Escape(y) && Plain(y)
    requires y != [] && IsSpace(y[0])
    ensures 0 < n < |y| && p + n <= |s|
    ensures NodeAt(s, p) == Ok(Step(Literal(y[..n]), p + n))
    ensures s[p + n..] == Escape(y[n..]) && Plain(y[n..])
  {
    n := SpaceRun(y, 0);
    LeadingSpacesSlices(s, p, y, n);
    SpaceRunExact(s, p, n);
  }

  /** Where the escaped form of `y` starts, its leading spaces stand unchanged. */
  lemma LeadingSpacesSlices(s: string, p: nat, y: string, n: nat)
    requires p <= |s| && s[p..] == Escape(y) && Plain(y)
    requires y != [] && IsSpace(y[0]) && n == SpaceRun(y, 0)
    ensures 0 < n < |y| && p + n < |s|
    ensures forall k :: p <= k < p + n ==> IsSpace(s[k])
    ensures !IsSpace(s[p + n])
    ensures y[..n] == Spaces(n)
    ensures s[p + n..] == Escape(y[n..]) && Plain(y[n..])
  {
    PlainLeadingSpaces(y, n);
    EscapedBlankPrefix(s, p, y, n);
    EscapeHead(y[n..]);
  }

  /** A plain text that starts with whitespace starts with spaces and goes on with plain text. */
  lemma PlainLeadingSpaces(y: string, n: nat)
    requires Plain(y) && y != [] && IsSpace(y[0]) && n == SpaceRun(y, 0)
    ensures 0 < n < |y| && !IsSpace(y[n])
    ensures y[..n] == Spaces(n) && AllSpace(y[..n])
    ensures Plain(y[n..])
  {
    assert n < |y|;
    assert forall k :: 0 <= k < n ==> y[..n][k] == y[k] == ' ';
    var rest := y[n..];
    assert forall k :: 0 <= k < |rest| ==> rest[k] == y[n + k];
  }

  /** The escaped form of text that starts with `n` blanks starts with those blanks. */
  lemma EscapedBlankPrefix(s: string, p: nat, y: string, n: nat)
    requires n <= |y| && AllSpace(y[..n]) && p <= |s| && s[p..] == Escape(y)
    ensures p + n <= |s|
    ensures forall k :: p <= k < p + n ==> s[k] == y[k - p]
    ensures s[p + n..] == Escape(y[n..])
  {
    EscapeBlankPrefix(y, n);
    SuffixParts(s, p, y[..n], Escape(y[n..]));
  }

  /** Escaping leaves a blank prefix as it is. */
  lemma EscapeBlankPrefix(y: string, n: nat)
    requires n <= |y| && AllSpace(y[..n])
    ensures Escape(y) == y[..n] + Escape(y[n..])
  {
    TakeDrop(y, n);
    EscapeAppend(y[..n], y[n..]);
    EscapeBlank(y[..n]);
  }

  lemma TakeDrop(y: string, n: nat)
    requires n <= |y|
    ensures y[..n] + y[n..] == y
  {
  }

  /** A suffix of `s` that is `a + b` holds `a` at its start and `b` after it. */
  lemma SuffixParts(s: string, p: nat, a: string, b: string)
    requires p <= |s| && s[p..] == a + b
    ensures p + |a| <= |s| && s[p + |a|..] == b
    ensures forall k :: p <= k < p + |a| ==> s[k] == a[k - p]
  {
    assert forall k :: p <= k < p + |a| ==> s[k] == s[p..][k - p];
    assert s[p + |a|..] == s[p..][|a|..];
  }

  /** Escaping keeps the first character in front. */
  lemma EscapeHead(x: string)
    requires x != []
    ensures Escape(x) != [] && Escape(x)[0] == x[0]
  {
  }

  /** A leading `}` of `y` (escaped `}}`) comes back as the literal `}`. */
  lemma {:induction false} ParseEscapedClose(s: string, p: nat, y: string, row: seq<string>)
    requires p <= |s| && s[p..] == Escape(y) && Plain(y)
    requires y != [] && y[0] == '}'
    ensures ParseFrom(s, p).Ok? && Render(ParseFrom(s, p).value, row) == Ok(y)
    decreases |y|, 0
  {
    assert s[p..] == "}}" + Escape(y[1..]);
    assert s[p] == '}' && s[p + 1] == '}';
    assert s[p + 2..] == Escape(y[1..]);
    assert NodeAt(s, p) == Ok(Step(Literal("}"), p + 2));
    ParseEscaped(s, p + 2, y[1..], row);
    RenderLiteralCons("}", ParseFrom(s, p + 2), row);
    assert "}" + y[1..] == y;
  }

  /** Otherwise the literal run takes all of `y` in one literal. */
  lemma ParseEscapedRun(s: string, p: nat, y: string, row: seq<string>)
    requires p <= |s| && s[p..] == Escape(y)
    requires y != [] && !IsSpace(y[0]) && y[0] != '}'
    ensures ParseFrom(s, p).Ok? && Render(ParseFrom(s, p).value, row) == Ok(y)
  {
    LiteralRunEscaped(s, p, y);
    assert s[p..] == (if y[0] == '{' then "{{" else [y[0]]) + Escape(y[1..]);
    assert s[p] == y[0];
    assert s[p] == '{' ==> s[p + 1] == '{';
    assert NodeAt(s, p) == Ok(Step(Literal(y), |s|));
    RenderLiteralCons(y, ParseFrom(s, |s|), row);
    assert y + [] == y;
  }

  /**
   * Escaping round-trips: the token with every brace of `x` doubled parses,
   * and renders back to `x` against any row.
   */
  lemma EscapeRoundTrip(x: string, row: seq<string>)
    requires Plain(x)
    ensures Parse(Escape(x)).Ok? && Render(Parse(Escape(x)).value, row) == Ok(x)
  {
    ParseEscaped(Escape(x), 0, x, row);
  }
}

=== FILE: results.dfy ===
/** Failure-carrying wrappers shared by every module of the model. */
module Results {

  /** Python's `Optional[T]`: a value or `None`. */
  datatype Option<+T> = None | Some(value: T)

  /** The outcome of an operation that may raise: a value or the exception it raises. */
  datatype Result<+T, +E> = Ok(value: T) | Err(error: E)
}

=== FILE: template.dfy ===
/**
 * The compiled form of one command-line token of src/yyargs/yyargs.py: a
 * sequence of `Argument` nodes, each substituted against a row (the fields
 * of one input line), the results concatenated.
 */
module Template {
  import opened Results

  /** `Literal(base)` is substituted verbatim; `Positional(pos)` selects field `pos` of the row. */
  datatype Argument = Literal(text: string) | Positional(pos: nat)

  /** Python's `IndexError` from `args[self.pos]`: the index and the row's length. */
  datatype RenderError = IndexOutOfRange(index: nat, length: nat)

  /** `Argument.substitute(row)` */
  function Substitute(a: Argument, row: seq<string>): (r: Result<string, RenderError>)
    ensures a.Literal? ==> r == Ok(a.text)
    ensures a.Positional? ==> (r.Ok? <==> a.pos < |row|)
    ensures a.Positional? && r.Ok? ==> r.value == row[a.pos]
    ensures r.Err? ==> r.error == IndexOutOfRange(a.pos, |row|)
  {
    match a
    case Literal(text) => Ok(text)
    case Positional(pos) => if pos < |row| then Ok(row[pos]) else Err(IndexOutOfRange(pos, |row|))
  }

  /** `Literal.__add__`: the literal with both texts. */
  function Add(a: Argument, b: Argument): (r: Argument)
    requires a.Literal? && b.Literal?
    ensures r.Literal? && |r.text| == |a.text| + |b.text|
    ensures r.text[..|a.text|] == a.text && r.text[|a.text|..] == b.text
  {
    Literal(a.text + b.text)
  }

  /** `''.join(a.substitute(row) for a in t)`, stopping at the first node that raises. */
  function Render(t: seq<Argument>, row: seq<string>): (r: Result<string, RenderError>)
    ensures r.Ok? ==> forall k :: 0 <= k < |t| ==> InRange(t[k], row)
  {
    if t == [] then Ok([])
    else
      match Substitute(t[0], row)
      case Err(e) => Err(e)
      case Ok(x) =>
        match Render(t[1..], row)
        case Err(e) => Err(e)
        case Ok(y) => Ok(x + y)
  }

  /** Concatenation of two outcomes: the first error wins. */
  function Concat(a: Result<string, RenderError>, b: Result<string, RenderError>): Result<string, RenderError>
  {
    match a
    case Err(e) => Err(e)
    case Ok(x) => match b case Err(e) => Err(e) case Ok(y) => Ok(x + y)
  }

  predicate InRange(a: Argument, row: seq<string>) {
    a.Positional? ==> a.pos < |row|
  }

  /** A template with no placeholder. */
  predicate LiteralsOnly(t: seq<Argument>) {
    forall k :: 0 <= k < |t| ==> t[k].Literal?
  }

  /** The texts of a placeholder-free template, concatenated. */
  function LiteralText(t: seq<Argument>): string
    requires LiteralsOnly(t)
  {
    if t == [] then [] else t[0].text + LiteralText(t[1..])
  }

  /** Rendering is compositional: a template split in two renders as the two halves joined. */
  lemma {:induction false} RenderAppend(a: seq<Argument>, b: seq<Argument>, row: seq<string>)
    ensures Render(a + b, row) == Concat(Render(a, row), Render(b, row))
    decreases |a|
  {
    if a == [] {
      assert a + b == b;
      if Render(b, row).Ok? {
        assert [] + Render(b, row).value == Render(b, row).value;
      }
    } else {
      assert (a + b)[0] == a[0];
      assert (a + b)[1..] == a[1..] + b;
      RenderAppend(a[1..], b, row);
      if Substitute(a[0], row).Ok? && Render(a[1..], row).Ok? && Render(b, row).Ok? {
        var x, y, z := Substitute(a[0], row).value, Render(a[1..], row).value, Render(b, row).value;
        assert x + (y + z) == (x + y) + z;
      }
    }
  }

  /** Rendering succeeds exactly when every placeholder is within the row. */
  lemma {:induction false} RenderOkIffInRange(t: seq<Argument>, row: seq<string>)
    ensures Render(t, row).Ok? <==> forall k :: 0 <= k < |t| ==> InRange(t[k], row)
    decreases |t|
  {
    if t != [] {
      RenderOkIffInRange(t[1..], row);
      assert forall k :: 1 <= k < |t| ==> t[k] == t[1..][k - 1];
    }
  }

  /** A failed render names the first placeholder beyond the row, and the row's length. */
  lemma {:induction false} RenderErrorIsFirstOutOfRange(t: seq<Argument>, row: seq<string>)
    requires Render(t, row).Err?
    ensures exists k :: 0 <= k < |t| && !InRange(t[k], row) &&
                        (forall m :: 0 <= m < k ==> InRange(t[m], row)) &&
                        Render(t, row).error == IndexOutOfRange(t[k].pos, |row|)
    decreases |t|
  {
    if InRange(t[0], row) {
      RenderErrorIsFirstOutOfRange(t[1..], row);
      var k :| 0 <= k < |t[1..]| && !InRange(t[1..][k], row) &&
               (forall m :: 0 <= m < k ==> InRange(t[1..][m], row)) &&
               Render(t[1..], row).error == IndexOutOfRange(t[1..][k].pos, |row|);
      assert !InRange(t[k + 1], row);
    } else {
      assert !InRange(t[0], row);
    }
  }

  /** A template without placeholders renders to its literal text, whatever the row. */
  lemma {:induction false} RenderLiteralsOnly(t: seq<Argument>, row: seq<string>)
    requires LiteralsOnly(t)
    ensures Render(t, row) == Ok(LiteralText(t))
    decreases |t|
  {
    if t != [] {
      RenderLiteralsOnly(t[1..], row);
    }
  }

  /** Hence such a template renders the same against any two rows. */
  lemma RenderIndependentOfRow(t: seq<Argument>, row1: seq<string>, row2: seq<string>)
    requires LiteralsOnly(t)
    ensures Render(t, row1) == Render(t, row2)
  {
    RenderLiteralsOnly(t, row1);
    RenderLiteralsOnly(t, row2);
  }

  /** Merging two adjacent literals with `+` never changes what the template renders to. */
  lemma AddPreservesRender(pre: seq<Argument>, a: Argument, b: Argument, post: seq<Argument>, row: seq<string>)
    requires a.Literal? && b.Literal?
    ensures Render(pre + [Add(a, b)] + post, row) == Render(pre + [a, b] + post, row)
  {
    RenderAppend(pre + [Add(a, b)], post, row);
    RenderAppend(pre, [Add(a, b)], row);
    RenderAppend(pre + [a, b], post, row);
    RenderAppend(pre, [a, b], row);
    assert Render([a, b], row) == Ok(a.text + b.text) by {
      assert [a, b][1..] == [b];
      assert [b][1..] == [];
      assert b.text + [] == b.text;
    }
    assert Render([Add(a, b)], row) == Ok(a.text + b.text) by {
      assert [Add(a, b)][1..] == [];
      assert (a.text + b.text) + [] == a.text + b.text;
    }
  }
}

=== FILE: text.dfy ===
/**
 * Character classes and the small string operations of Python's `str`
 * that the tools rely on: `isspace`, `isdigit`, `strip`, `upper`,
 * `int(...)` on a digit string, and `' ' * n`.
 */
module Text {

  /**
   * Python's `str.isspace`: every character whose Unicode class is a space
   * or separator.
   */
  predicate IsSpace(c: char)
  {
    ('\t' <= c <= '\r') || ('\U{1C}' <= c <= ' ') ||
    c == '\U{85}' || c == '\U{A0}' || c == '\U{1680}' ||
    ('\U{2000}' <= c <= '\U{200A}') || c == '\U{2028}' || c == '\U{2029}' ||
    c == '\U{202F}' || c == '\U{205F}' || c == '\U{3000}'
  }

  /** `str.isdigit` restricted to the ASCII digits. */
  predicate IsDigit(c: char)
  {
    '0' <= c <= '9'
  }

  /** The ASCII whitespace characters are whitespace; digits, letters and braces are not. */
  lemma SpaceClass(c: char)
    ensures c == ' ' || c == '\t' || c == '\n' || c == '\r' || c == '\U{B}' || c == '\U{C}' ==> IsSpace(c)
    ensures '0' <= c <= '9' || 'A' <= c <= 'Z' || 'a' <= c <= 'z' || c == '{' || c == '}' ==> !IsSpace(c)
  {
  }

  /** A digit is one of the ten characters `0`-`9`, and no digit is whitespace. */
  lemma DigitClass(c: char)
    ensures IsDigit(c) <==> c in "0123456789"
    ensures IsDigit(c) ==> !IsSpace(c)
  {
  }

  predicate AllDigits(s: string) {
    forall k :: 0 <= k < |s| ==> IsDigit(s[k])
  }

  predicate AllSpace(s: string) {
    forall k :: 0 <= k < |s| ==> IsSpace(s[k])
  }

  /** `' ' * n` */
  function Spaces(n: nat): (r: string)
    ensures |r| == n && forall k :: 0 <= k < n ==> r[k] == ' '
  {
    seq(n, _ => ' ')
  }

  /** The length of the maximal run of whitespace that starts at position `p` of `s`. */
  function SpaceRun(s: string, p: nat): (n: nat)
    requires p <= |s|
    ensures p + n <= |s|
    ensures forall k :: p <= k < p + n ==> IsSpace(s[k])
    ensures p + n == |s| || !IsSpace(s[p + n])
    decreases |s| - p
  {
    if p < |s| && IsSpace(s[p]) then 1 + SpaceRun(s, p + 1) else 0
  }

  /** The length of the maximal run of digits that starts at position `p` of `s`. */
  function DigitRun(s: string, p: nat): (n: nat)
    requires p <= |s|
    ensures p + n <= |s|
    ensures AllDigits(s[p..p + n])
    ensures p + n == |s| || !IsDigit(s[p + n])
    decreases |s| - p
  {
    if p < |s| && IsDigit(s[p]) then 1 + DigitRun(s, p + 1) else 0
  }

  function DigitValue(c: char): (d: nat)
    requires IsDigit(c)
    ensures d < 10
  {
    c as int - '0' as int
  }

  /** Python's `int(ds)` for a string of decimal digits (leading zeros allowed). */
  function Decimal(ds: string): (v: nat)
    requires AllDigits(ds)
    ensures v == 0 <==> forall k :: 0 <= k < |ds| ==> ds[k] == '0'
  {
    if ds == [] then 0 else 10 * Decimal(ds[..|ds| - 1]) + DigitValue(ds[|ds| - 1])
  }

  /** A leading zero does not change the value `int` reads. */
  lemma {:induction false} DecimalLeadingZero(ds: string)
    requires AllDigits(ds)
    ensures AllDigits("0" + ds) && Decimal("0" + ds) == Decimal(ds)
  {
    if ds != [] {
      var init := ds[..|ds| - 1];
      assert ("0" + ds)[..|ds|] == "0" + init;
      DecimalLeadingZero(init);
    }
  }

  /** `str.lstrip()`: drops the leading whitespace. */
  function TrimStart(s: string): (r: string)
    ensures |r| <= |s| && r == s[|s| - |r|..]
    ensures AllSpace(s[..|s| - |r|])
    ensures r == [] || !IsSpace(r[0])
  {
    if s != [] && IsSpace(s[0]) then
      var r := TrimStart(s[1..]);
      assert s[..|s| - |r|] == [s[0]] + s[1..][..|s| - 1 - |r|];
      r
    else s
  }

  /** `str.rstrip()`: drops the trailing whitespace. */
  function TrimEnd(s: string): (r: string)
    ensures |r| <= |s| && r == s[..|r|]
    ensures AllSpace(s[|r|..])
    ensures r == [] || !IsSpace(r[|r| - 1])
  {
    if s != [] && IsSpace(s[|s| - 1]) then
      var r := TrimEnd(s[..|s| - 1]);
      assert s[|r|..] == s[..|s| - 1][|r|..] + [s[|s| - 1]];
      r
    else s
  }

  /** `str.strip()`: drops leading and trailing whitespace. */
  function Strip(s: string): (r: string)
    ensures |r| <= |s|
    ensures r == [] || (!IsSpace(r[0]) && !IsSpace(r[|r| - 1]))
  {
    TrimEnd(TrimStart(s))
  }

  /**
   * What `strip` keeps is a slice of the input, with only whitespace cut
   * off either side, and it begins and ends with a non-space character.
   */
  lemma StripIsInnerSlice(s: string)
    ensures exists i, j :: 0 <= i <= j <= |s| && Strip(s) == s[i..j] &&
                           AllSpace(s[..i]) && AllSpace(s[j..])
    ensures Strip(s) == [] || (!IsSpace(Strip(s)[0]) && !IsSpace(Strip(s)[|Strip(s)| - 1]))
  {
    var i, j := StripBounds(s);
    var t, u := TrimStart(s), TrimEnd(TrimStart(s));
    if u != [] {
      assert u[0] == t[0];
    }
  }

  /** Where the text that `strip` keeps starts and ends in `s`. */
  lemma StripBounds(s: string) returns (i: nat, j: nat)
    ensures i <= j <= |s| && Strip(s) == s[i..j]
    ensures AllSpace(s[..i]) && AllSpace(s[j..])
  {
    var t := TrimStart(s);
    var u := TrimEnd(t);
    i, j := |s| - |t|, |s| - |t| + |u|;
    assert t == s[i..];
    assert u == t[..|u|];
    assert s[i..j] == u;
    assert s[j..] == t[|u|..];
  }

  /** `strip` gives the empty string exactly for whitespace-only input. */
  lemma StripEmptyIffBlank(s: string)
    ensures Strip(s) == [] <==> AllSpace(s)
  {
    var t := TrimStart(s);
    if t == [] {
      assert s[..|s|] == s;
    } else {
      assert t[0] == s[|s| - |t|];
      assert t[0..] == t;
    }
  }

  /** Stripping twice is stripping once. */
  lemma StripIdempotent(s: string)
    ensures Strip(Strip(s)) == Strip(s)
  {
    var r := Strip(s);
    StripIsInnerSlice(s);
    if r != [] {
      assert TrimStart(r) == r;
      assert TrimEnd(r) == r;
    }
  }

  /** ASCII `str.upper` on one character. */
  function Upper(c: char): (u: char)
    ensures 'a' <= c <= 'z' ==> 'A' <= u <= 'Z' && u as int - 'A' as int == c as int - 'a' as int
    ensures !('a' <= c <= 'z') ==> u == c
  {
    if 'a' <= c <= 'z' then (c as int - 'a' as int + 'A' as int) as char else c
  }

  /** ASCII `str.upper`. */
  function UpperString(s: string): (r: string)
    ensures |r| == |s| && forall k :: 0 <= k < |s| ==> r[k] == Upper(s[k])
  {
    seq(|s|, k requires 0 <= k < |s| => Upper(s[k]))
  }

  /** `str.rstrip('\r\n')`: drops every trailing carriage return and line feed. */
  function StripLineEnd(s: string): (r: string)
    ensures |r| <= |s| && r == s[..|r|]
    ensures forall k :: |r| <= k < |s| ==> s[k] == '\r' || s[k] == '\n'
    ensures r == [] || (r[|r| - 1] != '\r' && r[|r| - 1] != '\n')
  {
    if s != [] && (s[|s| - 1] == '\r' || s[|s| - 1] == '\n') then StripLineEnd(s[..|s| - 1]) else s
  }
}

=== FILE: textsplit.dfy ===
/**
 * The body of `main` in src/textsplit/textsplit.py: every input line is
 * split on the delimiter, and every part whose stripped form is non-empty
 * is printed stripped, one per line. `--no-empty-write` and `--trim` are
 * `store_true` flags whose default is already true, so both are always on;
 * `--ignore-empty` skips blank lines before they are split.
 */
module TextSplit {
  import opened Text
  import opened Fields

  /**
   * What a run prints, in order, and whether it stopped on the `ValueError`
   * that `str.split` raises for an empty delimiter.
   */
  datatype Outcome = Outcome(printed: seq<string>, raised: bool)

  /** `args.ignore_empty and not line.strip()`: the line is passed over without being split; under the flag, exactly the blank lines. */
  predicate Skipped(line: string, ignoreEmpty: bool) {
    ignoreEmpty && Strip(line) == []
  }

  /** Under `--ignore-empty` the lines passed over are exactly the blank ones. */
  lemma SkippedIffBlank(line: string, ignoreEmpty: bool)
    ensures Skipped(line, ignoreEmpty) <==> ignoreEmpty && AllSpace(line)
  {
    StripEmptyIffBlank(line);
  }

  /** The parts the inner loop prints: each part stripped, those that strip to nothing dropped. */
  function Kept(parts: seq<string>): (out: seq<string>)
    ensures |out| <= |parts|
  {
    if parts == [] then []
    else Kept(parts[..|parts| - 1]) + Emit(parts[|parts| - 1])
  }

  /** What one part prints: `part.strip()`, or nothing when that is empty. */
  function Emit(part: string): (out: seq<string>)
    ensures |out| <= 1
    ensures out == [] <==> AllSpace(part)
  {
    StripEmptyIffBlank(part);
    if Strip(part) == [] then [] else [Strip(part)]
  }

  /** The number of parts that strip to nothing, which `--no-empty-write` drops. */
  function BlankParts(parts: seq<string>): nat
  {
    if parts == [] then 0
    else BlankParts(parts[..|parts| - 1]) + (if AllSpace(parts[|parts| - 1]) then 1 else 0)
  }

  /** What one line prints: no more parts than `split` gives, one more than `line.count(d)`. */
  function LineParts(line: string, d: string): (out: seq<string>)
    requires |d| > 0
    ensures |out| <= Count(line, d) + 1
  {
    SplitCount(line, d);
    Kept(Split(line, d))
  }

  /** The whole loop over the input lines. */
  function Run(lines: seq<string>, d: string, ignoreEmpty: bool): (r: Outcome)
    ensures d != [] ==> !r.raised
  {
    if lines == [] then Outcome([], false)
    else
      var prev := Run(lines[..|lines| - 1], d, ignoreEmpty);
      var line := lines[|lines| - 1];
      if prev.raised || Skipped(line, ignoreEmpty) then prev
      else if d == [] then Outcome(prev.printed, true)
      else Outcome(prev.printed + LineParts(line, d), false)
  }

  /** The loops of `main`, with `print` collecting into `printed`. */
  method SplitLines(lines: seq<string>, d: string, ignoreEmpty: bool) returns (printed: seq<string>, raised: bool)
    ensures Outcome(printed, raised) == Run(lines, d, ignoreEmpty)
  {
    printed, raised := [], false;
    for i := 0 to |lines|
      invariant Run(lines[..i], d, ignoreEmpty) == Outcome(printed, false)
    {
      var line := lines[i];
      if ignoreEmpty && Strip(line) == [] {
        RunStep(lines, d, ignoreEmpty, i);
        continue;
      }
      if d == [] {
        RunStep(lines, d, ignoreEmpty, i);
        RaisedPersists(lines, d, ignoreEmpty, i + 1);
        return printed, true;
      }
      var parts := Split(line, d);
      ghost var before := printed;
      for k := 0 to |parts|
        invariant printed == before + Kept(parts[..k])
      {
        KeptStep(parts, k);
        Associative(before, Kept(parts[..k]), Emit(parts[k]));
        var s := Strip(parts[k]);
        if s == [] {
          assert Emit(parts[k]) == [];
          continue;
        }
        printed := printed + [s];
      }
      assert parts[..|parts|] == parts;
      RunStep(lines, d, ignoreEmpty, i);
    }
    assert lines[..|lines|] == lines;
  }

  /** One more line: skipped, raising, or printing its parts. */
  lemma RunStep(lines: seq<string>, d: string, ignoreEmpty: bool, i: nat)
    requires i < |lines| && !Run(lines[..i], d, ignoreEmpty).raised
    ensures Skipped(lines[i], ignoreEmpty) ==> Run(lines[..i + 1], d, ignoreEmpty) == Run(lines[..i], d, ignoreEmpty)
    ensures !Skipped(lines[i], ignoreEmpty) && d == [] ==>
              Run(lines[..i + 1], d, ignoreEmpty) == Outcome(Run(lines[..i], d, ignoreEmpty).printed, true)
    ensures !Skipped(lines[i], ignoreEmpty) && d != [] ==>
              Run(lines[..i + 1], d, ignoreEmpty) == Outcome(Run(lines[..i], d, ignoreEmpty).printed + LineParts(lines[i], d), false)
  {
    assert lines[..i + 1][..i] == lines[..i];
  }

  /** Once a run has raised, later lines change nothing. */
  lemma {:induction false} RaisedPersists(lines: seq<string>, d: string, ignoreEmpty: bool, i: nat)
    requires i <= |lines| && Run(lines[..i], d, ignoreEmpty).raised
    ensures Run(lines, d, ignoreEmpty) == Run(lines[..i], d, ignoreEmpty)
    decreases |lines| - i
  {
    if i < |lines| {
      assert lines[..i + 1][..i] == lines[..i];
      RaisedPersists(lines, d, ignoreEmpty, i + 1);
    } else {
      assert lines[..i] == lines;
    }
  }

  /** `Kept` works part by part: it distributes over concatenation. */
  lemma {:induction false} KeptAppend(a: seq<string>, b: seq<string>)
    ensures Kept(a + b) == Kept(a) + Kept(b)
    decreases |b|
  {
    if b == [] {
      assert a + b == a;
    } else {
      var init, last := b[..|b| - 1], b[|b| - 1];
      AppendSnoc(a, b);
      calc {
        Kept(a + b);
        { KeptSnoc(a + init, last); }
        Kept(a + init) + Emit(last);
        { KeptAppend(a, init); }
        (Kept(a) + Kept(init)) + Emit(last);
        { Associative(Kept(a), Kept(init), Emit(last)); }
        Kept(a) + (Kept(init) + Emit(last));
        { KeptSnoc(init, last); }
        Kept(a) + Kept(b);
      }
    }
  }

  lemma AppendSnoc<T>(a: seq<T>, b: seq<T>)
    requires b != []
    ensures a + b == (a + b[..|b| - 1]) + [b[|b| - 1]]
    ensures b == b[..|b| - 1] + [b[|b| - 1]]
  {
  }

  lemma Associative<T>(x: seq<T>, y: seq<T>, z: seq<T>)
    ensures (x + y) + z == x + (y + z)
  {
  }

  lemma KeptStep(parts: seq<string>, k: nat)
    requires k < |parts|
    ensures Kept(parts[..k + 1]) == Kept(parts[..k]) + Emit(parts[k])
  {
    assert parts[..k + 1][..k] == parts[..k];
  }

  lemma KeptSnoc(parts: seq<string>, last: string)
    ensures Kept(parts + [last]) == Kept(parts) + Emit(last)
  {
    assert (parts + [last])[..|parts|] == parts;
  }

  /** Every printed part is non-empty, not blank, and has no whitespace at either end. */
  lemma {:induction false} KeptTrimmed(parts: seq<string>)
    ensures forall k :: 0 <= k < |Kept(parts)| ==>
              Kept(parts)[k] != [] && !AllSpace(Kept(parts)[k]) && Strip(Kept(parts)[k]) == Kept(parts)[k]
    decreases |parts|
  {
    if parts != [] {
      var last := parts[|parts| - 1];
      KeptTrimmed(parts[..|parts| - 1]);
      StripIdempotent(last);
      StripEmptyIffBlank(Strip(last));
    }
  }

  /** Every printed part is a non-empty part of the line with its surrounding whitespace removed. */
  lemma LinePartsTrimmed(line: string, d: string)
    requires |d| > 0
    ensures forall k :: 0 <= k < |LineParts(line, d)| ==>
              LineParts(line, d)[k] != [] && Strip(LineParts(line, d)[k]) == LineParts(line, d)[k]
  {
    KeptTrimmed(Split(line, d));
  }

  /** Exactly the parts that are not blank are printed. */
  lemma {:induction false} KeptLength(parts: seq<string>)
    ensures |Kept(parts)| + BlankParts(parts) == |parts|
    decreases |parts|
  {
    if parts != [] {
      KeptLength(parts[..|parts| - 1]);
    }
  }

  /** A line prints `line.count(d) + 1` parts, less those that are blank. */
  lemma LinePartsCount(line: string, d: string)
    requires |d| > 0
    ensures |LineParts(line, d)| == Count(line, d) + 1 - BlankParts(Split(line, d))
  {
    SplitCount(line, d);
    KeptLength(Split(line, d));
  }

  /** A line without the delimiter prints at most one part: the stripped line. */
  lemma NoDelimiterOnePart(line: string, d: string)
    requires |d| > 0 && !Contains(line, d)
    ensures LineParts(line, d) == Emit(line)
    ensures |LineParts(line, d)| <= 1
  {
    NoSeparatorOneField(line, d);
    assert Kept([line]) == Kept([]) + Emit(line);
  }

  /** Every part of a blank line is blank. */
  lemma {:induction false} SplitBlank(s: string, d: string)
    requires |d| > 0 && AllSpace(s)
    ensures forall k :: 0 <= k < |Split(s, d)| ==> AllSpace(Split(s, d)[k])
    decreases |s|
  {
    var j := Find(s, d, 0);
    if j < |s| {
      SplitBlank(s[j + |d|..], d);
    }
  }

  /** Blank parts print nothing. */
  lemma {:induction false} KeptBlank(parts: seq<string>)
    requires forall k :: 0 <= k < |parts| ==> AllSpace(parts[k])
    ensures Kept(parts) == []
    decreases |parts|
  {
    if parts != [] {
      KeptBlank(parts[..|parts| - 1]);
      StripEmptyIffBlank(parts[|parts| - 1]);
    }
  }

  /** A blank line prints nothing, whether or not it is skipped. */
  lemma BlankLinePrintsNothing(line: string, d: string)
    requires |d| > 0 && Strip(line) == []
    ensures LineParts(line, d) == []
  {
    StripEmptyIffBlank(line);
    SplitBlank(line, d);
    KeptBlank(Split(line, d));
  }

  /** With a delimiter, what the run prints is what every line prints, concatenated in order. */
  function AllParts(lines: seq<string>, d: string): seq<string>
    requires |d| > 0
  {
    if lines == [] then [] else AllParts(lines[..|lines| - 1], d) + LineParts(lines[|lines| - 1], d)
  }

  /** With a delimiter, a run never raises and prints every line's parts in order; `--ignore-empty` changes nothing. */
  lemma {:induction false} RunPrintsEveryLine(lines: seq<string>, d: string, ignoreEmpty: bool)
    requires |d| > 0
    ensures Run(lines, d, ignoreEmpty) == Outcome(AllParts(lines, d), false)
    decreases |lines|
  {
    if lines != [] {
      var init, line := lines[..|lines| - 1], lines[|lines| - 1];
      RunPrintsEveryLine(init, d, ignoreEmpty);
      assert AllParts(lines, d) == AllParts(init, d) + LineParts(line, d);
      if Skipped(line, ignoreEmpty) {
        BlankLinePrintsNothing(line, d);
        AppendEmpty(AllParts(init, d));
      }
    }
  }

  /** Hence `--ignore-empty` has no effect on the output when the delimiter is non-empty. */
  lemma IgnoreEmptyNoEffect(lines: seq<string>, d: string)
    requires |d| > 0
    ensures Run(lines, d, true) == Run(lines, d, false)
  {
    RunPrintsEveryLine(lines, d, true);
    RunPrintsEveryLine(lines, d, false);
  }

  lemma AppendEmpty<T>(s: seq<T>)
    ensures s + [] == s
  {
  }

  lemma AllPartsSnoc(lines: seq<string>, last: string, d: string)
    requires |d| > 0
    ensures AllParts(lines + [last], d) == AllParts(lines, d) + LineParts(last, d)
  {
    assert (lines + [last])[..|lines|] == lines;
  }

  /** Lines are handled independently: the output for two blocks of lines is the two outputs concatenated. */
  lemma {:induction false} AllPartsAppend(a: seq<string>, b: seq<string>, d: string)
    requires |d| > 0
    ensures AllParts(a + b, d) == AllParts(a, d) + AllParts(b, d)
    decreases |b|
  {
    if b == [] {
      assert a + b == a;
    } else {
      var init, last := b[..|b| - 1], b[|b| - 1];
      AppendSnoc(a, b);
      calc {
        AllParts(a + b, d);
        { AllPartsSnoc(a + init, last, d); }
        AllParts(a + init, d) + LineParts(last, d);
        { AllPartsAppend(a, init, d); }
        (AllParts(a, d) + AllParts(init, d)) + LineParts(last, d);
        { Associative(AllParts(a, d), AllParts(init, d), LineParts(last, d)); }
        AllParts(a, d) + (AllParts(init, d) + LineParts(last, d));
        { AllPartsSnoc(init, last, d); }
        AllParts(a, d) + AllParts(b, d);
      }
    }
  }

  /**
   * With an empty delimiter nothing is printed: the first line that is not
   * skipped raises, and the run raises exactly when there is such a line.
   */
  lemma {:induction false} EmptyDelimiterRaises(lines: seq<string>, ignoreEmpty: bool)
    ensures Run(lines, [], ignoreEmpty).printed == []
    ensures Run(lines, [], ignoreEmpty).raised <==> exists k :: 0 <= k < |lines| && !Skipped(lines[k], ignoreEmpty)
    decreases |lines|
  {
    if lines != [] {
      var init := lines[..|lines| - 1];
      EmptyDelimiterRaises(init, ignoreEmpty);
      if exists k :: 0 <= k < |init| && !Skipped(init[k], ignoreEmpty) {
        var k :| 0 <= k < |init| && !Skipped(init[k], ignoreEmpty);
        assert lines[k] == init[k];
      }
      if exists k :: 0 <= k < |lines| && !Skipped(lines[k], ignoreEmpty) {
        var k :| 0 <= k < |lines| && !Skipped(lines[k], ignoreEmpty);
        if k < |init| {
          assert init[k] == lines[k];
        }
      }
    }
  }
}
